=== FILE: README.md ===
# LLM-SQL question answering, modelled in Dafny

This project models the question-answering turn of the LLM-SQL assistant
(`app_ollama.py`). It also models the two prompt templates
(`template/prompt.py`) and the log-line parser of the results viewer
(`visualize_script.py`). A turn goes through these steps:

1. The question is appended to the conversation.
2. The Haystack pipeline runs: retrieval, the SQL prompt, generation,
   `MDconverter` (SQL extraction), the answerability router, `SQLQuery`
   (execution), the error router, the explanation prompt and the explanation.
3. The assistant text is chosen from the components' outputs and appended.
4. The whole conversation is saved with `save_chat_history_to_db`.
5. If anything raises, the turn appends `Error: ...` instead.

Everything the turn does not compute itself is a field of `Pipeline.Env`:
the retriever, the two language models, the database that executes a query
and the schema inspector. A `Failure(e)` from one of them means that call
raised `e`.

Modules, one per concern of the source:

- `Wrappers`: `Option` and `Result`.
- `Text`: the Python string operations the code relies on, written out.
  These are `strip` (Unicode whitespace), ASCII `lower`, left-to-right
  `replace`, substring search and concatenation of parts.
- `Regex`: `re.search` of `open(.*?)close` with literal `open` and `close`,
  with and without DOTALL. It reports the leftmost, then shortest, match.
- `Numerals`: `str(n)` for the row count and its inverse.
- `SqlExtract`: `extract_sql` and `MDconverter.run`.
- `Executor`: `SQLQuery.run`.
- `Routing`: the answerability router (`routes`) and the error router
  (`error_routes`).
- `ChatStore`: `save_chat_history_to_db` and `load_chat_history` over a
  map from session id to rows.
- `Schema`: `get_table_schema`.
- `Prompts`: `SQL_PROMPT_TEMPLATE` and `EXPLAIN_PROMPT_TEMPLATE` as
  renderers over their fixed texts.
- `Pipeline`: the pipeline run, the outcome selection and the turn.
- `LogParser`: `parse_log_line`.

## Model

| member | source | states |
|---|---|---|
| Text.Strip | app_ollama.py:141 | `str.strip()`: the result has no leading or trailing whitespace, and removing only whitespace from both ends of the input gives it |
| Text.StripIdempotent | app_ollama.py:141 | stripping a stripped text changes nothing |
| Text.StripKeepsAbsence | app_ollama.py:141 | a text that does not contain a pattern still does not contain it after stripping |
| Text.LowerKeepsOccurrence | app_ollama.py:205 | an occurrence of a text becomes an occurrence of its lower-cased form in the lower-cased whole, at the same position |
| Text.ReplacePairRemovesPair | visualize_script.py:23 | after replacing every two-character pair by a text that cannot rebuild it, the pair no longer occurs |
| Text.ReplaceWithoutTarget | visualize_script.py:23 | replacing a text that does not occur leaves the line unchanged |
| Text.ReplaceAtFirst | visualize_script.py:23 | the first occurrence of the target becomes the replacement, the text before it is kept unchanged and the text after it is replaced in turn; with the row above this fixes the result for every line |
| Text.ReplaceSplit | visualize_script.py:23 | the same fact for a line written as a prefix, the target and a rest, where no occurrence of the target starts inside the prefix: the result is the prefix, the replacement and the replaced rest |
| Text.ReplaceAtFound | visualize_script.py:23 | the position `find` reports is where the first replacement happens |
| Text.Replace | visualize_script.py:23 | replacing by a text no longer than the target never lengthens the line, and by one of the same length keeps its length |
| Text.Lower | app_ollama.py:205-211 | the lower-cased text has the same length, each character lower-cased in place |
| Text.FindFrom | visualize_script.py:29 | the first occurrence of a pattern at or after a position, or none |
| Text.FindFromFinds | visualize_script.py:29 | an occurrence with none before it from the start position is the one found |
| Regex.Search | visualize_script.py:10 | a match of `open(.*?)close`; no match starts further left, and none at that start ends earlier; `None` exactly when nothing matches; without DOTALL the group has no newline |
| Regex.SearchFinds | visualize_script.py:19 | a match with no `open` before it and no `close` inside its group is the reported one |
| Regex.GroupLacksClose | visualize_script.py:37 | the lazy group never contains `close`, and without DOTALL never a newline |
| Regex.SearchFindsRendered | visualize_script.py:19 | a line written as `before + open + g + close + after` gives back `g` when `before` has no `open` and `g` has no `close` |
| Numerals.IntRoundTrip | app_ollama.py:176 | the decimal rendering of the row count parses back to the same integer |
| Numerals.NatToString | app_ollama.py:176 | a non-empty run of decimal digits that starts with `0` only for zero |
| Numerals.IntToString | app_ollama.py:176 | decimal digits, with a leading minus sign exactly for a negative row count |
| SqlExtract.FencedBlock | app_ollama.py:140 | the group found by the fence pattern starts after the first fence, its optional `sql` tag and all the whitespace that follows (`GroupStart`), ends at a fence, and no fence starts inside it |
| SqlExtract.ContentStart | app_ollama.py:140 | after the opening fence, the group start skips the `sql` tag when present, then exactly the whitespace run that follows, and no backtick |
| SqlExtract.GroupStartUnique | app_ollama.py:140 | only one index fits that description of the group start |
| SqlExtract.FencedBlockIff | app_ollama.py:140 | the pattern matches exactly when the reply has two fences, the second at least three characters after the first |
| SqlExtract.ExtractSql | app_ollama.py:139-141 | the result is stripped and no longer than the reply |
| SqlExtract.ExtractWithoutBlock | app_ollama.py:141 | a reply without a fenced block is only stripped |
| SqlExtract.ExtractWithBlock | app_ollama.py:140-141 | a reply with a block gives the stripped text from the group start (the first fence, its optional `sql` tag and all the whitespace after it skipped, and nothing else) to the next fence |
| SqlExtract.ExtractPlain | app_ollama.py:139-141 | a reply with no backtick that is already stripped is returned unchanged |
| SqlExtract.TaggedBlockAt | app_ollama.py:140 | when the first backticks in the reply open a fence tagged `sql` followed by a newline, the group spans from after that newline to the next fence |
| SqlExtract.ExtractTaggedShape | app_ollama.py:140-141 | for such a tagged block with stripped, backtick-free contents, the extracted SQL is exactly those contents |
| SqlExtract.ExtractTaggedBlock | app_ollama.py:140-141 | a reply made of backtick-free prose, a fenced `sql` block holding a stripped query, and any tail yields exactly that query |
| SqlExtract.ExtractedHasNoBlock | app_ollama.py:139-141 | an extracted text never holds a fenced block |
| SqlExtract.ExtractIdempotent | app_ollama.py:139-141 | extracting twice equals extracting once |
| SqlExtract.Convert | app_ollama.py:142-146 | one extracted string per reply, in reply order |
| SqlExtract.ConvertIdempotent | app_ollama.py:142-146 | converting the converter's output changes nothing |
| Executor.RunQueries | app_ollama.py:156-180 | one result per query, in query order: the error text, the table, or the row-count message; the queries come back unchanged |
| Executor.Render | app_ollama.py:164-179 | a raised statement gives `SQL Error: ` followed by its message, returned rows give the printed table, and no rows give the row count between the two fixed texts |
| Executor.RenderRoundTrip | app_ollama.py:164-179 | the three execution outcomes can be read back from the result string, except for a table that looks like one of the two messages |
| Routing.RouteAnswerability | app_ollama.py:203-216 | with at least one string exactly one route is taken. It is `no_answer`, with the fixed message, iff `no_answer` occurs in the lower-cased first string; otherwise `sql` carries only the first string. With no strings nothing is routed |
| Routing.MentionsSentinel | app_ollama.py:205-211 | the sentinel written as it is always counts as a mention; any other capitalisation counts too (`SentinelAnyCase`) |
| Routing.RouteDependsOnFirstOnly | app_ollama.py:205-211 | only the first extracted string decides the route |
| Routing.SentinelAnyCase | app_ollama.py:205-211 | `no_answer` written in any capitalisation anywhere in the string selects the refusal |
| Routing.RouteErrors | app_ollama.py:231-244 | with at least one result, `sql_error` carries the first result iff it contains `SQL Error:`; otherwise `results_ok` carries all results. With no results nothing is routed |
| Routing.RaisedRoutesToError | app_ollama.py:178-179 | a statement that raised is always routed to `sql_error` with its error text |
| Routing.AffectedNeverRoutesToError | app_ollama.py:176 | a row-count message is never routed to `sql_error` |
| Routing.TableMentioningMarkerRoutesToError | app_ollama.py:233 | a table whose text contains `SQL Error:` is routed to `sql_error`: the test is a substring test |
| ChatStore.DeleteSession | app_ollama.py:66 | the session has no rows afterwards, and other sessions are unchanged |
| ChatStore.RoleName | app_ollama.py:62 | the role name is a non-empty lower-case word, `user` exactly for a user message |
| ChatStore.RoleNamesDistinct | app_ollama.py:62 | two roles have the same name only when they are the same role |
| ChatStore.ToRow | app_ollama.py:60-78 | the saved row keeps the message text, and its role is `user` exactly for a user message |
| ChatStore.HistoryRows | app_ollama.py:60-78 | one row per message, in message order |
| ChatStore.FromRow | app_ollama.py:97-103 | the loaded message keeps the row content; it is a user message iff the row role is `user`, otherwise an assistant message |
| ChatStore.InsertRow | app_ollama.py:67-78 | the row is appended to the session, and other sessions are unchanged |
| ChatStore.SaveChatHistory | app_ollama.py:57-82 | a raising statement rolls everything back and re-raises its error. Otherwise the session holds one row per message, in order, with the lower-cased role name and the text. Other sessions never change |
| ChatStore.LoadChatHistory | app_ollama.py:89-104 | one message per row, in row order: `user` rows become user messages, all others assistant messages |
| ChatStore.MessageRoundTrip | app_ollama.py:61-103 | a message comes back unchanged after a save and load iff it is a user or assistant message; otherwise it comes back as an assistant message with the same text |
| ChatStore.LoadAfterSave | app_ollama.py:57-104 | loading a saved session gives the saved history, normalized, in order, whatever the session held before |
| ChatStore.ConversationRoundTrip | app_ollama.py:57-104 | a conversation of user and assistant messages comes back exactly after a save and load |
| Schema.TableSchema | app_ollama.py:106-124 | a successful inspection yields a text that starts with the table header; a raising one yields the failure text with the error |
| Schema.ColumnsListedInOrder | app_ollama.py:117-120 | each column's line `- name (type)` sits after the header and the lines of the columns before it |
| Schema.DescriptionAppends | app_ollama.py:117-120 | more columns extend the description by their lines |
| Schema.FailureText | app_ollama.py:123-124 | the failure text names the table after a fixed lead and ends with the exception's message |
| Prompts.RenderSql | template/prompt.py:1-30 | a rendered SQL template opens with its preamble and ends with its rules, whatever is substituted |
| Prompts.SqlPrompt | template/prompt.py:1-5 | every SQL prompt opens with the template's first lines |
| Prompts.HistoryRenderedInOrder | template/prompt.py:5-8 | each conversation entry's line sits after the preamble and the lines of the entries before it |
| Prompts.HistoryBlockAppends | template/prompt.py:6-8 | more conversation renders as more lines appended to the block |
| Prompts.QuestionFollowsMarker | template/prompt.py:10 | the question appears verbatim after `Latest user question: ` |
| Prompts.SchemaBetweenDelimiters | template/prompt.py:12-15 | the schema appears verbatim between two `---` lines |
| Prompts.KnowledgeBetweenDelimiters | template/prompt.py:17-22 | the retrieved documents, then the line break that closes their loop, sit between two `---` lines |
| Prompts.DocumentsInRetrievalOrder | template/prompt.py:19-21 | each document's content sits in the knowledge block in retrieval order |
| Prompts.NoDocumentsEmptyBlock | template/prompt.py:17-22 | with no documents only the line break that closes the empty loop separates the two `---` lines |
| Prompts.RuleAt | template/prompt.py:24-29 | the rules end the rendered prompt, each rule at its own offset inside them |
| Prompts.RulesAlwaysLast | template/prompt.py:24-29 | every SQL prompt carries the `no_answer` rule and the SELECT/WITH rule inside the rules that end it |
| Prompts.ExplainUsesFirstResultOnly | template/prompt.py:40 | results after the first never influence the explanation prompt |
| Prompts.ExplainSubstitutions | template/prompt.py:32-43 | the question follows the preamble and the first result follows `SQL Result: `, both verbatim |
| Prompts.RenderExplain | template/prompt.py:32-43 | a rendered explanation template opens with its preamble and ends with its closing text |
| Prompts.ExplainPrompt | template/prompt.py:40-43 | every explanation prompt ends with `Please answer:`; an empty result list renders like a single empty result |
| Pipeline.Payload | app_ollama.py:329-332 | one entry per message, in order, with the lower-cased role name and the text |
| Pipeline.AppendAssistant | app_ollama.py:360-361 | the history grows by one assistant message exactly when the chosen text is present and not empty; otherwise it is unchanged |
| Pipeline.RunPipeline | app_ollama.py:253-267 | a completed run has the outputs the selection reads (a routed query has a querier and an error-router output, and `results_ok` also an explainer output); a raised retrieval fails the run with its error; after a retrieval, the SQL prompt built from the history, the question, the schema and the retrieved documents goes to the generator, whose error fails the run and whose replies are routed |
| Pipeline.Route | app_ollama.py:253-260 | no replies fail the run. A completed run refuses iff the first extracted reply mentions `no_answer`, and a refusal runs nothing else; otherwise it routes exactly that reply |
| Pipeline.Query | app_ollama.py:260-267 | no queries fail the run; a completed run holds the querier output for exactly the routed queries, and has an explainer output iff the error router took `results_ok` |
| Pipeline.OutcomeOf | app_ollama.py:346-359 | a refusal iff the router refused; a SQL error iff the error router took `sql_error`, with its text and the first query; the explainer's first reply iff results were ok and it replied; nothing otherwise |
| Pipeline.AssistantText | app_ollama.py:346-359 | no text exactly when no branch applies; a refusal shows its message, a SQL error the fixed Vietnamese lead followed by the error, an explanation its text |
| Pipeline.OutcomeOfPipeline | app_ollama.py:321-362 | for the first generator reply `q`, after extraction: a refusal if `q` mentions `no_answer`; otherwise a SQL error if executing `q` gives a text containing `SQL Error:`; otherwise the explainer's first reply, no text for an empty reply list, or a failed run if the explainer raised |
| Pipeline.NoRepliesFails | app_ollama.py:203-217 | with no generator replies the router cannot decide and the run fails |
| Pipeline.SentinelReplyRefused | app_ollama.py:321-348 | when the generator answers with the bare `no_answer` marker, the run is a refusal carrying the fixed no-answer message and no query, result or explanation |
| Pipeline.RejectedQueryEchoed | app_ollama.py:321-355 | when the generator wraps a query in a tagged fence and the database raises, the run succeeds with the querier output holding the error text and that query, and the outcome is a SQL error showing both |
| Pipeline.PromptHistoryEndsWithQuestion | app_ollama.py:322-338 | the last conversation line in the SQL prompt is the user's question, and it ends exactly where the text leading to `Latest user question: ` begins |
| Pipeline.AnswerQuestion | app_ollama.py:321-370 | an empty question changes nothing. Otherwise the history starts with the old history plus the question and grows by one to three messages. A raised pipeline appends `Error: ...` and saves nothing. A completed run appends the chosen text. When no save statement up to the last INSERT of that history raises, the history is exactly that and it is what the store holds for the session. When one does raise, the store is kept and `Error: ` with its message is appended after the chosen text. Other sessions never change |
| Pipeline.SaveTurn | app_ollama.py:346-370 | after the run: a raised run appends `Error: ...` and keeps the store. A completed run appends the chosen text. If no statement up to the last INSERT of that history raises, the store then holds exactly that history. If one does raise, the store is kept and `Error: ...` is appended after the chosen text |
| LogParser.QuestionField | visualize_script.py:10-11 | `N/A` when nothing matches; otherwise a stripped question with no real or escaped line break |
| LogParser.SqlField | visualize_script.py:19-25 | the not-found text when nothing matches; never an escaped line break |
| LogParser.ExplainerSearch | visualize_script.py:29 | the reported match has the leftmost tag, then the first `text='` after it, then the first quote; no match when any of them is missing |
| LogParser.ExplainerField | visualize_script.py:29-30 | `N/A` when nothing matches; never an escaped line break |
| LogParser.NoAnswerField | visualize_script.py:37-38 | `N/A` when nothing matches; otherwise a stripped reason with no quote and no line break |
| LogParser.ParseLogLine | visualize_script.py:6-50 | the route is SQL iff the line has the SQL marker, No Answer iff only the refusal marker, Unknown iff neither. On the SQL route the SQL and the answer are the SQL field and the explainer field, so a line without the SQL group reports the not-found text and one without an explainer reply reports `N/A`. On the No Answer route the answer is the refusal field, `N/A` when the reason is not found. A non-SQL route has SQL `N/A`, and Unknown has answer `N/A` |
| LogParser.QuestionRoundTrip | visualize_script.py:10-11 | a line with `Question: q` followed by an escaped line break yields `q` stripped |
| LogParser.SqlRoundTrip | visualize_script.py:14-23 | a line with `'router': {'sql': ['q']}` yields the SQL route and `q` stripped, with its escaped line breaks restored |
| LogParser.NoAnswerRoundTrip | visualize_script.py:32-38 | a line with a refusal and no SQL route yields the No Answer route and the stripped reason |
| LogParser.ExplainerFoundAt | visualize_script.py:29 | the leftmost tag, the first `text='` after it and the first quote after that form the reported match |
| LogParser.SqlRouteAnswer | visualize_script.py:14-30 | on a line with the SQL marker, a written explainer reply is the reported answer, stripped and with `<br>` for each escaped line break |
| LogParser.ExplainerRoundTrip | visualize_script.py:29-30 | an explainer reply written after the tag yields its stripped text with `<br>` for each escaped line break |
| LogParser.SqlMarkerTakesPriority | visualize_script.py:14-32 | a line with both markers is reported as SQL |

## Behaviour worth noting

- Retrieval is one dense retriever with `top_k=3` (app_ollama.py:191). A
  retrieval failure raises and fails the turn.
- When the schema inspector raises, `get_table_schema` returns a failure
  text, and that text goes into the prompt in place of the column list
  (app_ollama.py:123-124). The turn goes on.
- The error router tests whether `SQL Error:` occurs anywhere in the first
  result (app_ollama.py:233). A successful query whose table contains that
  text is routed as an error (`Routing.TableMentioningMarkerRoutesToError`).
- The explanation prompt substitutes `result[0]`, the whole first result
  string: for a query that returns rows, the entire printed table
  (template/prompt.py:40).
- The rendered SQL prompt ends with five rules; the SELECT/WITH rule is the
  third (template/prompt.py:24-29).
- Saving and loading gives back exactly the saved turns only for user and
  assistant messages, and only if rows load in insertion order (see Left
  out).
- The answerability router decides only when the converter produced at
  least one string. With none the run raises (`Pipeline.NoRepliesFails`).

## Left out

- Retrieval internals: embedding the question, the pgvector store and the
  dense retriever are the collaborator `Env.retrieve`. There is no fusion in
  the code to model.
- Haystack's pipeline engine, Ollama and sentence-transformers are
  replaced by `Env` functions. The text of a Haystack error raised by a
  router whose conditions cannot be evaluated is `Pipeline.RouterFailure`.
- SQLAlchemy and pandas: executing a query is `Env.exec`, and the data
  frame's printed table is the opaque text in `Executor.ExecResult.Rows`.
- Streamlit UI, session state, `st.cache_data`/`st.cache_resource` and the
  session list (`get_chat_sessions`, session creation): user interface
  only.
- JSONL result logging, `_json_serializer` and timing: output and clock
  only. A failure of `save_result` after a successful save is not
  modelled.
- `create_visualization`, setup_db.py, the embedding scripts and
  app_vanna.py / app.py: outside the question-answering turn.
- ChatStore.LoadChatHistory: rows are assumed to load in insertion order.
  The query orders by a timestamp, but all rows of one save share the
  transaction's timestamp, so the database does not promise this order.
- LogParser.ParseLogLine: modelled on its own terms. The result log is
  written as JSON, while the parser expects Python-repr quoting, so no round
  trip from a logged turn to a parsed line is claimed.
- Text.Lower: only ASCII letters are lower-cased. The sentinel `no_answer`
  is ASCII and no other code point lower-cases to one of its letters, so
  the router's decision is unaffected.
- Prompts.RenderSql: the indentation of the templates' lines is not
  reproduced. Line breaks follow Jinja's default rendering, which keeps the
  line break after each `{% for %}` and `{% endfor %}` tag; fixed texts and
  substitutions are reproduced.
- Prompts.ExplainPrompt: Jinja renders `result[0]` of an empty list as the
  empty text. The error router never passes an empty list.
- Pipeline.Route: the explanation prompt and the explainer are taken to run
  only when the error router takes `results_ok`, their only connection
  (app_ollama.py:266-267). The explanation prompt declares no required
  variables and receives `question` from the run input (app_ollama.py:340),
  so the pipeline engine may also run it, with an empty `result`, and then
  the explainer, on the refusal and SQL-error paths. If it does, an
  explainer that raises there fails a turn the model reports as a refusal
  or a SQL error. Which outcome is chosen is the same either way. The
  engine's scheduling is not modelled.

=== FILE: chat_store.dfy ===
/** Chat persistence (app_ollama.py `save_chat_history_to_db` and
    `load_chat_history`). The `chat_messages` table is modelled as a map from
    session id to that session's rows in insertion order. Loading is assumed
    to return the rows in insertion order: the query orders by a timestamp
    that defaults to the transaction time, so rows saved together tie and the
    database does not otherwise promise an order. */
module ChatStore {
  import opened Wrappers

  /** Haystack's `ChatRole`. */
  datatype Role = User | Assistant | System | Tool

  datatype Message = Message(role: Role, text: string)

  /** `role.name.lower()`: a non-empty lower-case word, a different one for
      each role. */
  function RoleName(r: Role): (name: string)
    ensures |name| > 0
    ensures forall i :: 0 <= i < |name| ==> 'a' <= name[i] <= 'z'
    ensures name == "user" <==> r == User
  {
    match r
    case User => "user"
    case Assistant => "assistant"
    case System => "system"
    case Tool => "tool"
  }

  /** The columns of a `chat_messages` row the model needs. */
  datatype Row = Row(role: string, content: string)

  type SessionId = string

  type Store = map<SessionId, seq<Row>>

  /** `SELECT ... WHERE session_id = :session_id`: no key means no rows. */
  function RowsOf(store: Store, sid: SessionId): seq<Row> {
    if sid in store then store[sid] else []
  }

  /** `DELETE FROM chat_messages WHERE session_id = :session_id`. */
  function DeleteSession(store: Store, sid: SessionId): (after: Store)
    ensures RowsOf(after, sid) == []
    ensures forall other :: other != sid ==> RowsOf(after, other) == RowsOf(store, other)
  {
    store - {sid}
  }

  /** `INSERT INTO chat_messages(session_id, role, content) VALUES (...)`. */
  function InsertRow(store: Store, sid: SessionId, row: Row): (after: Store)
    ensures RowsOf(after, sid) == RowsOf(store, sid) + [row]
    ensures forall other :: other != sid ==> RowsOf(after, other) == RowsOf(store, other)
  {
    store[sid := RowsOf(store, sid) + [row]]
  }

  /** Two roles never share a name, so a saved row still tells its role. */
  lemma RoleNamesDistinct(a: Role, b: Role)
    ensures RoleName(a) == RoleName(b) <==> a == b
  {
  }

  /** The row saved for one message: its role's name and its text. */
  function ToRow(m: Message): (row: Row)
    ensures row.content == m.text
    ensures row.role == "user" <==> m.role == User
  {
    Row(RoleName(m.role), m.text)
  }

  /** The message loaded from one row: `'user'` is a user message, any other
      role an assistant message. */
  function FromRow(row: Row): (m: Message)
    ensures m.text == row.content
    ensures m.role == User <==> row.role == "user"
    ensures m.role == User || m.role == Assistant
  {
    if row.role == "user" then Message(User, row.content) else Message(Assistant, row.content)
  }

  /** The rows a history is saved as, in message order. */
  function HistoryRows(history: seq<Message>): (rows: seq<Row>)
    ensures |rows| == |history|
    ensures forall i :: 0 <= i < |history| ==> rows[i] == ToRow(history[i])
  {
    seq(|history|, i requires 0 <= i < |history| => ToRow(history[i]))
  }

  /** What a message becomes after being saved and loaded again. */
  function Normalize(m: Message): Message {
    if m.role == User then m else Message(Assistant, m.text)
  }

  /** A statement of the save transaction raises: statement 0 is the DELETE,
      statement `k` the `k`-th INSERT. */
  datatype Fault = Fault(statement: nat, message: string)

  /** `save_chat_history_to_db`: inside one transaction, delete every row of
      the session and insert one row per message, in order. If a statement
      raises, the transaction rolls back (the store is returned unchanged)
      and the error is re-raised. */
  method SaveChatHistory(store: Store, sid: SessionId, history: seq<Message>, fault: Option<Fault>)
    returns (after: Store, raised: Option<string>)
    ensures raised.Some? <==> fault.Some? && fault.value.statement <= |history|
    ensures raised.Some? ==> raised.value == fault.value.message && after == store
    ensures raised.None? ==> RowsOf(after, sid) == HistoryRows(history)
    ensures forall other :: other != sid ==> RowsOf(after, other) == RowsOf(store, other)
  {
    var rows := HistoryRows(history);
    if fault.Some? && fault.value.statement == 0 {
      return store, Some(fault.value.message);
    }
    var working := DeleteSession(store, sid);
    var i := 0;
    while i < |rows|
      invariant 0 <= i <= |rows|
      invariant RowsOf(working, sid) == rows[..i]
      invariant forall other :: other != sid ==> RowsOf(working, other) == RowsOf(store, other)
      invariant fault.None? || fault.value.statement > i
    {
      if fault.Some? && fault.value.statement == i + 1 {
        return store, Some(fault.value.message);
      }
      working := InsertRow(working, sid, rows[i]);
      i := i + 1;
    }
    assert rows[..i] == rows;
    return working, None;
  }

  /** `load_chat_history`: the session's rows as messages, in row order. */
  function LoadChatHistory(store: Store, sid: SessionId): (history: seq<Message>)
    ensures |history| == |RowsOf(store, sid)|
    ensures forall i :: 0 <= i < |history| ==> history[i] == FromRow(RowsOf(store, sid)[i])
  {
    var rows := RowsOf(store, sid);
    seq(|rows|, i requires 0 <= i < |rows| => FromRow(rows[i]))
  }

  // ---------------------------------------------------------------------------
  // Properties

  /** A message survives saving and loading exactly when it is a user or an
      assistant message; a system or tool message comes back as an assistant
      message with the same text. */
  lemma MessageRoundTrip(m: Message)
    ensures FromRow(ToRow(m)) == Normalize(m)
    ensures FromRow(ToRow(m)) == m <==> (m.role == User || m.role == Assistant)
  {
  }

  /** Loading a saved session gives back the normalized history, in order,
      whatever the session held before. */
  lemma LoadAfterSave(store: Store, sid: SessionId, history: seq<Message>)
    requires RowsOf(store, sid) == HistoryRows(history)
    ensures |LoadChatHistory(store, sid)| == |history|
    ensures forall i :: 0 <= i < |history| ==> LoadChatHistory(store, sid)[i] == Normalize(history[i])
  {
    forall i | 0 <= i < |history|
      ensures LoadChatHistory(store, sid)[i] == Normalize(history[i])
    {
      MessageRoundTrip(history[i]);
    }
  }

  /** A conversation of user and assistant messages round-trips exactly. */
  lemma ConversationRoundTrip(store: Store, sid: SessionId, history: seq<Message>)
    requires RowsOf(store, sid) == HistoryRows(history)
    requires forall i :: 0 <= i < |history| ==> history[i].role == User || history[i].role == Assistant
    ensures LoadChatHistory(store, sid) == history
  {
    LoadAfterSave(store, sid, history);
  }
}

=== FILE: executor.dfy ===
/** `SQLQuery.run` (app_ollama.py): executes each query on a fresh connection
    and turns what happened into one result string. The database itself is a
    collaborator: `exec` says what executing a query text does. Each query
    runs on its own connection that is closed without a commit, so all queries
    of one call see the same database state and `exec` can be a function. */
module Executor {
  import opened Wrappers
  import opened Text
  import opened Numerals

  /** What executing one statement does: it raises (the driver's message), or
      it returns rows (rendered by the data-frame printer into `table`), or it
      returns no rows and reports a row count (`-1` when unknown). */
  datatype ExecResult = Raised(message: string) | Rows(table: string) | Affected(rowcount: int)

  const ErrorPrefix: string := "SQL Error: "
  const AffectedPrefix: string := "Query executed successfully, "
  const AffectedSuffix: string := " rows affected."

  /** The result string appended for one statement. */
  function Render(e: ExecResult): (r: string)
    ensures e.Raised? ==> StartsWith(r, ErrorPrefix) && r[|ErrorPrefix|..] == e.message
    ensures e.Rows? ==> r == e.table
    ensures e.Affected? ==> StartsWith(r, AffectedPrefix) && EndsWith(r, AffectedSuffix)
                            && |r| == |AffectedPrefix| + |IntToString(e.rowcount)| + |AffectedSuffix|
                            && r[|AffectedPrefix|..|r| - |AffectedSuffix|] == IntToString(e.rowcount)
  {
    match e
    case Raised(m) => ErrorPrefix + m
    case Rows(t) => t
    case Affected(n) => AffectedPrefix + IntToString(n) + AffectedSuffix
  }

  /** The output of `SQLQuery.run`: the result strings and the queries as given. */
  datatype QuerierOutput = QuerierOutput(results: seq<string>, queries: seq<string>)

  /** `SQLQuery.run`: one result per query, in query order; queries echoed unchanged. */
  function RunQueries(queries: seq<string>, exec: string -> ExecResult): (out: QuerierOutput)
    ensures |out.results| == |queries|
    ensures out.queries == queries
    ensures forall i :: 0 <= i < |queries| ==> out.results[i] == Render(exec(queries[i]))
  {
    QuerierOutput(seq(|queries|, i requires 0 <= i < |queries| => Render(exec(queries[i]))), queries)
  }

  // ---------------------------------------------------------------------------
  // Reading a result string back

  predicate StartsWith(s: string, p: string) {
    |p| <= |s| && s[..|p|] == p
  }

  predicate EndsWith(s: string, p: string) {
    |p| <= |s| && s[|s| - |p|..] == p
  }

  /** A table whose text is not shaped like either message. */
  predicate PlainTable(t: string) {
    !StartsWith(t, ErrorPrefix) && !(StartsWith(t, AffectedPrefix) && EndsWith(t, AffectedSuffix))
  }

  /** Classifies a result string back into what happened. */
  function Unrender(s: string): ExecResult
  {
    if StartsWith(s, ErrorPrefix) then Raised(s[|ErrorPrefix|..])
    else if |s| >= |AffectedPrefix| + |AffectedSuffix| && StartsWith(s, AffectedPrefix) && EndsWith(s, AffectedSuffix) then
      match ParseInt(s[|AffectedPrefix|..|s| - |AffectedSuffix|])
      case Some(n) => Affected(n)
      case None => Rows(s)
    else Rows(s)
  }

  /** Every outcome can be read back from its result string, except a table
      that happens to look like one of the two messages. */
  lemma RenderRoundTrip(e: ExecResult)
    requires e.Rows? ==> PlainTable(e.table)
    ensures Unrender(Render(e)) == e
  {
    match e
    case Raised(m) =>
      assert (ErrorPrefix + m)[..|ErrorPrefix|] == ErrorPrefix;
      assert (ErrorPrefix + m)[|ErrorPrefix|..] == m;
    case Rows(t) =>
    case Affected(n) =>
      var s := Render(e);
      var digits := IntToString(n);
      assert s[..|AffectedPrefix|] == AffectedPrefix;
      assert s[|s| - |AffectedSuffix|..] == AffectedSuffix;
      assert s[|AffectedPrefix|..|s| - |AffectedSuffix|] == digits;
      assert !StartsWith(s, ErrorPrefix) by {
        assert s[|AffectedPrefix| - 2] == ',';
        assert s[0] == 'Q' != ErrorPrefix[0];
      }
      IntRoundTrip(n);
  }
}

=== FILE: log_parser.dfy ===
/** `parse_log_line` (visualize_script.py): one logged line reduced to the
    question, the route label, the SQL and the final answer, by four regular
    expression searches and two substring tests. The line is searched as
    text; the two-character sequence backslash, `n` stands for an escaped
    line break in it. */
module LogParser {
  import opened Wrappers
  import opened Text
  import opened Regex

  const NotAvailable: string := "N/A"
  const SqlNotFound: string := "Không tìm thấy SQL."

  const SqlLabel: string := "✅ SQL"
  const NoAnswerLabel: string := "❌ No Answer"
  const UnknownLabel: string := "❓ Unknown"

  /** Backslash followed by `n`: a line break as the log escapes it. */
  const EscapedNewline: string := "\\n"
  const HtmlBreak: string := "<br>"

  const QuestionOpen: string := "Question: "
  const SqlMarker: string := "'router': {'sql':"
  const SqlOpen: string := "'router': {'sql': ['"
  const SqlClose: string := "']}"
  const RouterOpen: string := "'router': {"
  const NoAnswerMarker: string := "'router': {'no_answer':"
  const NoAnswerOpen: string := "'no_answer': '"
  const Quote: string := "'"
  const ExplainerTag: string := "'llm_explainer'"
  const TextOpen: string := "text='"

  /** The four values of the returned dictionary. */
  datatype LogRecord = LogRecord(question: string, route: string, sql: string, answer: string)

  /** `Question: (.*?)\\n`, group stripped, or `N/A`. The question never
      spans a line break, real or escaped. */
  function QuestionField(line: string): (q: string)
    ensures Search(line, QuestionOpen, EscapedNewline, false).None? ==> q == NotAvailable
    ensures q == NotAvailable || (IsStripped(q) && !Contains(q, "\n") && !Contains(q, EscapedNewline))
  {
    match Search(line, QuestionOpen, EscapedNewline, false)
    case None => NotAvailable
    case Some(m) =>
      var g := Group(line, QuestionOpen, EscapedNewline, false, m);
      GroupLacksClose(line, QuestionOpen, EscapedNewline, false);
      StripKeepsAbsence(g, "\n");
      StripKeepsAbsence(g, EscapedNewline);
      Strip(g)
  }

  /** Escaped line breaks turned into `repl` leave none behind, as long as
      `repl` has no backslash and does not start with `n`. */
  lemma UnescapeRemovesEscapes(s: string, repl: string)
    requires |repl| > 0 && repl[0] != 'n'
    requires forall m :: 0 <= m < |repl| ==> repl[m] != '\\'
    ensures !Contains(Replace(s, EscapedNewline, repl), EscapedNewline)
  {
    assert EscapedNewline == ['\\', 'n'];
    ReplacePairRemovesPair(s, '\\', 'n', repl);
    ContainsPairIff(Replace(s, EscapedNewline, repl), '\\', 'n');
  }

  /** `'router': {'sql': \['(.*?)'\]}` with DOTALL, group stripped and its
      escaped line breaks restored, or the not-found text. */
  function SqlField(line: string): (sql: string)
    ensures Search(line, SqlOpen, SqlClose, true).None? ==> sql == SqlNotFound
    ensures !Contains(sql, EscapedNewline)
  {
    match Search(line, SqlOpen, SqlClose, true)
    case None =>
      assert !Contains(SqlNotFound, EscapedNewline) by {
        assert NoPair(SqlNotFound, '\\', 'n');
        ContainsPairIff(SqlNotFound, '\\', 'n');
      }
      SqlNotFound
    case Some(m) =>
      var g := Strip(Group(line, SqlOpen, SqlClose, true, m));
      UnescapeRemovesEscapes(g, "\n");
      Replace(g, EscapedNewline, "\n")
  }

  /** `'llm_explainer'.*?text='(.*?)'` with DOTALL matches with the tag at
      `a`, `text='` at `t` and the closing quote at `c`. */
  predicate IsExplainerMatch(line: string, a: int, t: int, c: int) {
    && OccursAt(line, ExplainerTag, a)
    && a + |ExplainerTag| <= t && OccursAt(line, TextOpen, t)
    && t + |TextOpen| <= c && OccursAt(line, Quote, c)
  }

  /** The match the backtracking search reports: the leftmost tag, then the
      first `text='` after it, then the first quote after that; no match at
      all when one of them is missing. */
  function ExplainerSearch(line: string): (r: Option<(nat, nat, nat)>)
    ensures r.Some? ==> IsExplainerMatch(line, r.value.0, r.value.1, r.value.2)
    ensures r.Some? ==> forall a, t, c :: IsExplainerMatch(line, a, t, c) ==>
              || r.value.0 < a
              || (r.value.0 == a && r.value.1 < t)
              || (r.value.0 == a && r.value.1 == t && r.value.2 <= c)
    ensures r.None? ==> forall a, t, c :: !IsExplainerMatch(line, a, t, c)
  {
    match FindFrom(line, ExplainerTag, 0)
    case None => None
    case Some(a) =>
      match FindFrom(line, TextOpen, a + |ExplainerTag|)
      case None => None
      case Some(t) =>
        match FindFrom(line, Quote, t + |TextOpen|)
        case None => None
        case Some(c) => Some((a, t, c))
  }

  /** The explainer's text, stripped, with escaped line breaks turned into
      `<br>`, or `N/A`. */
  function ExplainerField(line: string): (answer: string)
    ensures ExplainerSearch(line).None? ==> answer == NotAvailable
    ensures !Contains(answer, EscapedNewline)
  {
    match ExplainerSearch(line)
    case None =>
      assert !Contains(NotAvailable, EscapedNewline) by {
        assert NoPair(NotAvailable, '\\', 'n');
        ContainsPairIff(NotAvailable, '\\', 'n');
      }
      NotAvailable
    case Some(m) =>
      var g := Strip(line[m.1 + |TextOpen|..m.2]);
      UnescapeRemovesEscapes(g, HtmlBreak);
      Replace(g, EscapedNewline, HtmlBreak)
  }

  /** `'no_answer': '(.*?)'` without DOTALL, group stripped, or `N/A`. The
      reason never contains a quote or a line break. */
  function NoAnswerField(line: string): (answer: string)
    ensures Search(line, NoAnswerOpen, Quote, false).None? ==> answer == NotAvailable
    ensures answer == NotAvailable || (IsStripped(answer) && !Contains(answer, Quote) && !Contains(answer, "\n"))
  {
    match Search(line, NoAnswerOpen, Quote, false)
    case None => NotAvailable
    case Some(m) =>
      var g := Group(line, NoAnswerOpen, Quote, false, m);
      GroupLacksClose(line, NoAnswerOpen, Quote, false);
      StripKeepsAbsence(g, Quote);
      StripKeepsAbsence(g, "\n");
      Strip(g)
  }

  /** `parse_log_line(line)`. */
  function ParseLogLine(line: string): (rec: LogRecord)
    ensures rec.question == QuestionField(line)
    ensures rec.route == SqlLabel <==> Contains(line, SqlMarker)
    ensures rec.route == NoAnswerLabel <==> !Contains(line, SqlMarker) && Contains(line, NoAnswerMarker)
    ensures rec.route == UnknownLabel <==> !Contains(line, SqlMarker) && !Contains(line, NoAnswerMarker)
    ensures rec.route != SqlLabel ==> rec.sql == NotAvailable
    ensures rec.route == UnknownLabel ==> rec.answer == NotAvailable
    ensures rec.route == SqlLabel ==> rec.sql == SqlField(line) && rec.answer == ExplainerField(line)
    ensures rec.route == NoAnswerLabel ==> rec.answer == NoAnswerField(line)
    ensures rec.route == SqlLabel && Search(line, SqlOpen, SqlClose, true).None? ==> rec.sql == SqlNotFound
    ensures rec.route == SqlLabel && ExplainerSearch(line).None? ==> rec.answer == NotAvailable
    ensures rec.route == NoAnswerLabel && Search(line, NoAnswerOpen, Quote, false).None? ==> rec.answer == NotAvailable
    ensures rec.route == SqlLabel ==> !Contains(rec.sql, EscapedNewline) && !Contains(rec.answer, EscapedNewline)
  {
    var question := QuestionField(line);
    if Contains(line, SqlMarker) then
      LogRecord(question, SqlLabel, SqlField(line), ExplainerField(line))
    else if Contains(line, NoAnswerMarker) then
      LogRecord(question, NoAnswerLabel, NotAvailable, NoAnswerField(line))
    else
      LogRecord(question, UnknownLabel, NotAvailable, NotAvailable)
  }

  // ---------------------------------------------------------------------------
  // Lines written in the logged shape parse back to what was written

  /** A question written as `Question: q` followed by an escaped line break
      is read back stripped. */
  lemma QuestionRoundTrip(before: string, q: string, after: string)
    requires forall k :: 0 <= k < |before| ==> !OccursAt(before + QuestionOpen + q + EscapedNewline + after, QuestionOpen, k)
    requires CloseFree(q, EscapedNewline)
    requires forall k :: 0 <= k < |q| ==> q[k] != '\n'
    ensures ParseLogLine(before + QuestionOpen + q + EscapedNewline + after).question == Strip(q)
  {
    SearchFindsRendered(before, QuestionOpen, q, EscapedNewline, after, false);
  }

  /** A routed query written as `'router': {'sql': ['q']}` is reported as the
      SQL route, with `q` stripped and its escaped line breaks restored. */
  lemma SqlRoundTrip(before: string, q: string, after: string)
    requires forall k :: 0 <= k < |before| ==> !OccursAt(before + SqlOpen + q + SqlClose + after, SqlOpen, k)
    requires CloseFree(q, SqlClose)
    ensures var rec := ParseLogLine(before + SqlOpen + q + SqlClose + after);
            rec.route == SqlLabel && rec.sql == Replace(Strip(q), EscapedNewline, "\n")
  {
    var line := before + SqlOpen + q + SqlClose + after;
    SearchFindsRendered(before, SqlOpen, q, SqlClose, after, true);
    assert line[|before|..|before| + |SqlMarker|] == SqlMarker;
    assert OccursAt(line, SqlMarker, |before|);
    ContainsIff(line, SqlMarker);
  }

  /** A refusal written as `'router': {'no_answer': 'reason'` is reported as
      the no-answer route with the reason stripped, when the line has no SQL
      route. */
  lemma NoAnswerRoundTrip(before: string, reason: string, after: string)
    requires !Contains(before + RouterOpen + NoAnswerOpen + reason + Quote + after, SqlMarker)
    requires forall k :: 0 <= k < |before + RouterOpen| ==>
               !OccursAt(before + RouterOpen + NoAnswerOpen + reason + Quote + after, NoAnswerOpen, k)
    requires CloseFree(reason, Quote)
    requires forall k :: 0 <= k < |reason| ==> reason[k] != '\n'
    ensures var rec := ParseLogLine(before + RouterOpen + NoAnswerOpen + reason + Quote + after);
            rec.route == NoAnswerLabel && rec.sql == NotAvailable && rec.answer == Strip(reason)
  {
    var line := before + RouterOpen + NoAnswerOpen + reason + Quote + after;
    assert line == (before + RouterOpen) + NoAnswerOpen + reason + Quote + after;
    SearchFindsRendered(before + RouterOpen, NoAnswerOpen, reason, Quote, after, false);
    assert line[|before|..|before| + |NoAnswerMarker|] == NoAnswerMarker;
    assert OccursAt(line, NoAnswerMarker, |before|);
    ContainsIff(line, NoAnswerMarker);
  }

  /** The leftmost tag, the first `text='` after it and the first quote
      after that are the match the search reports. */
  lemma ExplainerFoundAt(line: string, a: nat, t: nat, c: nat)
    requires IsExplainerMatch(line, a, t, c)
    requires forall k :: 0 <= k < a ==> !OccursAt(line, ExplainerTag, k)
    requires forall k :: a + |ExplainerTag| <= k < t ==> !OccursAt(line, TextOpen, k)
    requires forall k :: t + |TextOpen| <= k < c ==> !OccursAt(line, Quote, k)
    ensures ExplainerSearch(line) == Some((a, t, c))
  {
    FindFromFinds(line, ExplainerTag, 0, a);
    FindFromFinds(line, TextOpen, a + |ExplainerTag|, t);
    FindFromFinds(line, Quote, t + |TextOpen|, c);
  }

  /** The explainer's reply written as `'llm_explainer'`, then anything
      without `text='`, then `text='answer'`, is read back stripped with
      `<br>` for each escaped line break. */
  lemma ExplainerRoundTrip(before: string, middle: string, answer: string, after: string)
    requires forall k :: 0 <= k < |before| ==>
               !OccursAt(before + ExplainerTag + middle + TextOpen + answer + Quote + after, ExplainerTag, k)
    requires CloseFree(middle, TextOpen)
    requires forall k :: 0 <= k < |answer| ==> answer[k] != '\''
    ensures ExplainerField(before + ExplainerTag + middle + TextOpen + answer + Quote + after)
            == Replace(Strip(answer), EscapedNewline, HtmlBreak)
  {
    var line := before + ExplainerTag + middle + TextOpen + answer + Quote + after;
    var a := |before|;
    var t := a + |ExplainerTag| + |middle|;
    var c := t + |TextOpen| + |answer|;
    ExplainerLayout(line, before, middle, answer, after);
    TextOpenFirst(line, before, middle, answer, after);
    QuoteFirst(line, before + ExplainerTag + middle + TextOpen, answer, after);
    ExplainerFoundAt(line, a, t, c);
    var g := Strip(line[t + |TextOpen|..c]);
    assert ExplainerField(line) == Replace(g, EscapedNewline, HtmlBreak);
    assert line[t + |TextOpen|..c] == answer;
  }

  /** On a line with a SQL route, the reported answer is the explainer's
      reply read back as `ExplainerRoundTrip` states. */
  lemma SqlRouteAnswer(before: string, middle: string, answer: string, after: string)
    requires Contains(before + ExplainerTag + middle + TextOpen + answer + Quote + after, SqlMarker)
    requires forall k :: 0 <= k < |before| ==>
               !OccursAt(before + ExplainerTag + middle + TextOpen + answer + Quote + after, ExplainerTag, k)
    requires CloseFree(middle, TextOpen)
    requires forall k :: 0 <= k < |answer| ==> answer[k] != '\''
    ensures var rec := ParseLogLine(before + ExplainerTag + middle + TextOpen + answer + Quote + after);
            rec.route == SqlLabel && rec.answer == Replace(Strip(answer), EscapedNewline, HtmlBreak)
  {
    ExplainerRoundTrip(before, middle, answer, after);
  }

  /** Where the pieces of a written explainer reply sit in the line. */
  lemma ExplainerLayout(line: string, before: string, middle: string, answer: string, after: string)
    requires line == before + ExplainerTag + middle + TextOpen + answer + Quote + after
    ensures var t := |before| + |ExplainerTag| + |middle|;
            && IsExplainerMatch(line, |before|, t, t + |TextOpen| + |answer|)
            && line[t + |TextOpen|..t + |TextOpen| + |answer|] == answer
  {
    var a := |before|;
    var t := a + |ExplainerTag| + |middle|;
    var c := t + |TextOpen| + |answer|;
    assert line[a..a + |ExplainerTag|] == ExplainerTag;
    assert line[t..t + |TextOpen|] == TextOpen;
    assert line[c..c + 1] == Quote;
    assert line[t + |TextOpen|..c] == answer;
  }

  /** No quote starts inside an answer that has none. */
  lemma QuoteFirst(line: string, prefix: string, answer: string, after: string)
    requires line == prefix + answer + Quote + after
    requires forall k :: 0 <= k < |answer| ==> answer[k] != '\''
    ensures forall k :: |prefix| <= k < |prefix| + |answer| ==> !OccursAt(line, Quote, k)
  {
    forall k | |prefix| <= k < |prefix| + |answer|
      ensures !OccursAt(line, Quote, k)
    {
      assert line[k] == answer[k - |prefix|];
      assert line[k..k + 1][0] == line[k];
    }
  }

  /** No `text='` starts between the tag and the one written after `middle`. */
  lemma TextOpenFirst(line: string, before: string, middle: string, answer: string, after: string)
    requires line == before + ExplainerTag + middle + TextOpen + answer + Quote + after
    requires CloseFree(middle, TextOpen)
    ensures forall k :: |before| + |ExplainerTag| <= k < |before| + |ExplainerTag| + |middle| ==> !OccursAt(line, TextOpen, k)
  {
    var m0 := |before| + |ExplainerTag|;
    forall k | m0 <= k < m0 + |middle|
      ensures !OccursAt(line, TextOpen, k)
    {
      var k' := k - m0;
      assert !OccursAt(middle + TextOpen, TextOpen, k');
      if k + |TextOpen| <= |line| {
        assert line[k..k + |TextOpen|] == (middle + TextOpen)[k'..k' + |TextOpen|];
      }
    }
  }

  /** A line that carries a SQL route is reported as SQL even when it also
      mentions a refusal. */
  lemma SqlMarkerTakesPriority(line: string)
    requires Contains(line, SqlMarker) && Contains(line, NoAnswerMarker)
    ensures ParseLogLine(line).route == SqlLabel
  {
  }

  /** The three labels are distinct, so each line gets exactly one route. */
  lemma LabelsDistinct()
    ensures SqlLabel != NoAnswerLabel && SqlLabel != UnknownLabel && NoAnswerLabel != UnknownLabel
  {
  }
}

=== FILE: numerals.dfy ===
/** Python's `str(n)` for an integer (decimal digits, a leading `-` when
    negative) and a parser that recovers the integer from that text. */
module Numerals {
  import opened Wrappers

  predicate IsDigit(c: char) {
    '0' <= c <= '9'
  }

  function DigitChar(d: nat): (c: char)
    requires d < 10
    ensures IsDigit(c)
  {
    "0123456789"[d]
  }

  function DigitValue(c: char): (d: nat)
    requires IsDigit(c)
    ensures d < 10
  {
    c as int - '0' as int
  }

  /** Decimal digits of `n`, most significant first, no leading zeros. */
  function NatToString(n: nat): (r: string)
    decreases n
    ensures |r| > 0
    ensures forall i :: 0 <= i < |r| ==> IsDigit(r[i])
    ensures r[0] == '0' ==> n == 0
  {
    if n < 10 then [DigitChar(n)] else NatToString(n / 10) + [DigitChar(n % 10)]
  }

  /** `str(n)` for a Python `int`. */
  function IntToString(n: int): (r: string)
    ensures |r| > 0
    ensures forall i :: 0 <= i < |r| ==> IsDigit(r[i]) || (i == 0 && r[i] == '-')
    ensures (r[0] == '-') <==> n < 0
  {
    if n < 0 then "-" + NatToString(-n) else NatToString(n)
  }

  /** The value of a non-empty string of decimal digits. */
  function ParseDigits(s: string): nat
    requires |s| > 0
    requires forall i :: 0 <= i < |s| ==> IsDigit(s[i])
    decreases |s|
  {
    if |s| == 1 then DigitValue(s[0])
    else ParseDigits(s[..|s| - 1]) * 10 + DigitValue(s[|s| - 1])
  }

  /** `int(s)` on an optional `-` followed by digits; `None` for anything else. */
  function ParseInt(s: string): Option<int>
  {
    if |s| > 0 && s[0] == '-' then
      if |s| > 1 && forall i :: 1 <= i < |s| ==> IsDigit(s[i]) then Some(0 - ParseDigits(s[1..]) as int) else None
    else if |s| > 0 && forall i :: 0 <= i < |s| ==> IsDigit(s[i]) then Some(ParseDigits(s) as int)
    else None
  }

  lemma DigitRoundTrip(d: nat)
    requires d < 10
    ensures DigitValue(DigitChar(d)) == d
  {
  }

  lemma {:induction false} NatRoundTrip(n: nat)
    ensures ParseDigits(NatToString(n)) == n
    decreases n
  {
    DigitRoundTrip(n % 10);
    if n >= 10 {
      var r := NatToString(n);
      assert r[..|r| - 1] == NatToString(n / 10);
      NatRoundTrip(n / 10);
    }
  }

  /** The rendered count can be read back: rendering is injective. */
  lemma IntRoundTrip(n: int)
    ensures ParseInt(IntToString(n)) == Some(n)
  {
    if n < 0 {
      assert IntToString(n)[1..] == NatToString(-n);
      NatRoundTrip(-n);
    } else {
      NatRoundTrip(n);
    }
  }
}

=== FILE: pipeline.dfy ===
/** One question-answering turn (app_ollama.py): the Haystack pipeline run
    (retrieval, SQL prompt, generation, extraction, answerability router,
    execution, error router, explanation prompt, explanation), the choice of
    the assistant text from the components' outputs, and the update and save
    of the conversation. Every collaborator is a field of `Env`; a
    `Failure(e)` from one of them means that call raised `e`. */
module Pipeline {
  import opened Wrappers
  import opened Text
  import opened SqlExtract
  import opened Executor
  import opened Routing
  import opened ChatStore
  import opened Schema
  import opened Prompts

  /** The collaborators of one turn. */
  datatype Env = Env(
    retrieve: string -> Result<seq<Document>, string>,   // embed the question, fetch the top documents
    generate: string -> Result<seq<string>, string>,     // SQL generator: prompt to replies
    exec: string -> ExecResult,                          // database: what a query does
    explain: string -> Result<seq<string>, string>,      // explainer: prompt to replies
    inspect: string -> Result<seq<Column>, string>)      // database inspector: table to columns

  const SchemaTable: string := "violations"
  const RouterFailure: string := "no route could be evaluated"
  const SqlErrorPrefix: string := "Đã xảy ra lỗi khi thực thi SQL:\n"
  const ErrorTextPrefix: string := "Error: "

  /** What the components that ran produced (`include_outputs_from`):
      components that did not run have no entry. */
  datatype Run = Run(
    router: AnswerRoute,
    querier: Option<QuerierOutput>,
    errorRouter: Option<ErrorRoute>,
    explainer: Option<seq<string>>)

  /** `history_payload`: each message as its lower-cased role name and text. */
  function Payload(history: seq<Message>): (entries: seq<HistoryEntry>)
    ensures |entries| == |history|
    ensures forall i :: 0 <= i < |history| ==> entries[i] == HistoryEntry(RoleName(history[i].role), history[i].text)
  {
    seq(|history|, i requires 0 <= i < |history| => HistoryEntry(RoleName(history[i].role), history[i].text))
  }

  /** `sql_pipeline.run(...)`: `Failure` when a component raised. Retrieval
      and generation, then the answerability router. A completed run always
      holds the outputs the selection reads. */
  function RunPipeline(env: Env, question: string, history: seq<HistoryEntry>, schema: string): (r: Result<Run, string>)
    ensures r.Success? ==> WellFormed(r.value)
    ensures env.retrieve(question).Failure? ==> r == Failure(env.retrieve(question).error)
    ensures env.retrieve(question).Success? ==>
              var g := env.generate(SqlPrompt(history, question, schema, env.retrieve(question).value));
              (g.Failure? ==> r == Failure(g.error)) && (g.Success? ==> r == Route(env, question, g.value))
  {
    match env.retrieve(question)
    case Failure(e) => Failure(e)
    case Success(docs) =>
      match env.generate(SqlPrompt(history, question, schema, docs))
      case Failure(e) => Failure(e)
      case Success(replies) => Route(env, question, replies)
  }

  /** The converter and the answerability router on the generator's replies.
      A refusal runs nothing further: the explanation components are wired
      only to the error router's `results_ok` output. */
  function Route(env: Env, question: string, replies: seq<string>): (r: Result<Run, string>)
    ensures |replies| == 0 ==> r == Failure(RouterFailure)
    ensures r.Success? ==> WellFormed(r.value) && |replies| > 0
    ensures r.Success? ==> (r.value.router.NoAnswerRoute? <==> MentionsSentinel(ExtractSql(replies[0])))
    ensures r.Success? && r.value.router.NoAnswerRoute? ==> r.value == Run(NoAnswerRoute(NoAnswerMessage), None, None, None)
    ensures r.Success? && r.value.router.SqlRoute? ==> r.value.router.sql == [ExtractSql(replies[0])]
  {
    match RouteAnswerability(Convert(replies))
    case None => Failure(RouterFailure)
    case Some(NoAnswerRoute(message)) => Success(Run(NoAnswerRoute(message), None, None, None))
    case Some(SqlRoute(sql)) => Query(env, question, sql)
  }

  /** Execution, the error router and, on success, the explanation. The
      explainer runs exactly when the error router took `results_ok`. */
  function Query(env: Env, question: string, sql: seq<string>): (r: Result<Run, string>)
    ensures |sql| == 0 ==> r == Failure(RouterFailure)
    ensures r.Success? ==> WellFormed(r.value)
    ensures r.Success? ==> r.value.router == SqlRoute(sql) && r.value.querier == Some(RunQueries(sql, env.exec))
    ensures r.Success? ==> (r.value.explainer.Some? <==> r.value.errorRouter.value.ResultsOk?)
  {
    var out := RunQueries(sql, env.exec);
    match RouteErrors(out.results)
    case None => Failure(RouterFailure)
    case Some(SqlErrorRoute(error)) => Success(Run(SqlRoute(sql), Some(out), Some(SqlErrorRoute(error)), None))
    case Some(ResultsOk(results)) =>
      match env.explain(ExplainPrompt(question, results))
      case Failure(e) => Failure(e)
      case Success(answers) => Success(Run(SqlRoute(sql), Some(out), Some(ResultsOk(results)), Some(answers)))
  }

  /** The components whose outputs the selection reads did run. */
  predicate WellFormed(run: Run) {
    run.router.SqlRoute? ==>
      && run.querier.Some? && |run.querier.value.queries| > 0
      && run.errorRouter.Some?
      && (run.errorRouter.value.ResultsOk? ==> run.explainer.Some?)
  }

  /** The outcome of a run, chosen in the order the turn tests them. */
  datatype Outcome = NoAnswer(message: string) | SqlError(error: string, query: string) | Explained(text: string) | Nothing

  function OutcomeOf(run: Run): (o: Outcome)
    requires WellFormed(run)
    ensures o.NoAnswer? <==> run.router.NoAnswerRoute?
    ensures o.NoAnswer? ==> o.message == run.router.message
    ensures o.SqlError? <==> run.router.SqlRoute? && run.errorRouter.value.SqlErrorRoute?
    ensures o.SqlError? ==> o.error == run.errorRouter.value.error && o.query == run.querier.value.queries[0]
    ensures o.Explained? <==> run.router.SqlRoute? && run.errorRouter.value.ResultsOk? && |run.explainer.value| > 0
    ensures o.Explained? ==> o.text == run.explainer.value[0]
  {
    if run.router.NoAnswerRoute? then NoAnswer(run.router.message)
    else if run.errorRouter.value.SqlErrorRoute? then SqlError(run.errorRouter.value.error, run.querier.value.queries[0])
    else if |run.explainer.value| > 0 then Explained(run.explainer.value[0])
    else Nothing
  }

  /** `assistant_text`: `None` when no branch set it. */
  function AssistantText(o: Outcome): (text: Option<string>)
    ensures text.None? <==> o.Nothing?
    ensures o.NoAnswer? ==> text == Some(o.message)
    ensures o.SqlError? ==> |text.value| == |SqlErrorPrefix| + |o.error|
                            && text.value[..|SqlErrorPrefix|] == SqlErrorPrefix
                            && text.value[|SqlErrorPrefix|..] == o.error
    ensures o.Explained? ==> text == Some(o.text)
  {
    match o
    case NoAnswer(m) => Some(m)
    case SqlError(e, _) => Some(SqlErrorPrefix + e)
    case Explained(t) => Some(t)
    case Nothing => None
  }

  /** `if assistant_text:`: a text is appended only when it is not empty. */
  function AppendAssistant(history: seq<Message>, text: Option<string>): (h: seq<Message>)
    ensures h == history || (text.Some? && text.value != "" && h == history + [Message(Assistant, text.value)])
    ensures |h| == |history| + 1 <==> text.Some? && text.value != ""
  {
    if text.Some? && text.value != "" then history + [Message(Assistant, text.value)] else history
  }

  /** End to end: which outcome a completed run has, in terms of the first
      generator reply `q` (after extraction) and what executing it did.
      The no-answer route wins over everything; an execution error wins over
      the explanation; the explanation is the explainer's first reply. */
  lemma OutcomeOfPipeline(env: Env, question: string, history: seq<HistoryEntry>, schema: string, docs: seq<Document>, replies: seq<string>)
    requires env.retrieve(question) == Success(docs)
    requires env.generate(SqlPrompt(history, question, schema, docs)) == Success(replies)
    requires |replies| > 0
    ensures var q := ExtractSql(replies[0]);
            var result := Render(env.exec(q));
            var run := RunPipeline(env, question, history, schema);
            && (MentionsSentinel(q) ==> run == Success(Run(NoAnswerRoute(NoAnswerMessage), None, None, None))
                                        && OutcomeOf(run.value) == NoAnswer(NoAnswerMessage))
            && (!MentionsSentinel(q) && Contains(result, ErrorMarker) ==>
                  run.Success? && run.value.querier == Some(QuerierOutput([result], [q]))
                  && OutcomeOf(run.value) == SqlError(result, q))
            && (!MentionsSentinel(q) && !Contains(result, ErrorMarker) ==>
                  match env.explain(ExplainPrompt(question, [result]))
                  case Failure(e) => run == Failure(e)
                  case Success(answers) =>
                    && run.Success? && run.value.querier == Some(QuerierOutput([result], [q]))
                    && OutcomeOf(run.value) == (if |answers| > 0 then Explained(answers[0]) else Nothing))
  {
    var q := ExtractSql(replies[0]);
    assert Convert(replies)[0] == q;
    var out := RunQueries([q], env.exec);
    assert out.results == [Render(env.exec(q))];
  }

  /** Without generator replies the router cannot evaluate its condition and
      the run fails. */
  lemma NoRepliesFails(env: Env, question: string, history: seq<HistoryEntry>, schema: string, docs: seq<Document>)
    requires env.retrieve(question) == Success(docs)
    requires env.generate(SqlPrompt(history, question, schema, docs)) == Success([])
    ensures RunPipeline(env, question, history, schema) == Failure(RouterFailure)
  {
  }

  /** A generator that answers with the bare sentinel gets the refusal, and
      nothing is executed: the run has no querier output. */
  lemma SentinelReplyRefused(env: Env, question: string, history: seq<HistoryEntry>, schema: string, docs: seq<Document>, replies: seq<string>)
    requires env.retrieve(question) == Success(docs)
    requires env.generate(SqlPrompt(history, question, schema, docs)) == Success(replies)
    requires |replies| > 0 && replies[0] == Sentinel
    ensures RunPipeline(env, question, history, schema) == Success(Run(NoAnswerRoute(NoAnswerMessage), None, None, None))
  {
    SentinelIsClean();
    SentinelMentioned();
    OutcomeOfPipeline(env, question, history, schema, docs, replies);
  }

  /** The bare sentinel passes through extraction unchanged. */
  lemma SentinelIsClean()
    ensures ExtractSql(Sentinel) == Sentinel
  {
    var s := Sentinel;
    assert forall k :: 0 <= k < |s| ==> s[k] != '`';
    assert IsStripped(s);
    ExtractPlain(s);
  }

  /** The bare sentinel mentions the sentinel. */
  lemma SentinelMentioned()
    ensures MentionsSentinel(Sentinel)
  {
    var s := Sentinel;
    assert Lower(s) == s;
    assert OccursAt(s, s, 0);
    ContainsIff(s, s);
  }

  /** A query in a ```` ```sql ```` block that the database rejects comes
      back as an execution error carrying the driver's message, with the
      extracted query echoed for display. */
  lemma RejectedQueryEchoed(env: Env, question: string, history: seq<HistoryEntry>, schema: string, docs: seq<Document>,
                            replies: seq<string>, before: string, sql: string, after: string, message: string)
    requires env.retrieve(question) == Success(docs)
    requires env.generate(SqlPrompt(history, question, schema, docs)) == Success(replies)
    requires |replies| > 0 && replies[0] == before + Fence + SqlTag + "\n" + sql + Fence + after
    requires forall k :: 0 <= k < |before| ==> before[k] != '`'
    requires forall k :: 0 <= k < |sql| ==> sql[k] != '`'
    requires IsStripped(sql) && !MentionsSentinel(sql)
    requires env.exec(sql) == Raised(message)
    ensures var run := RunPipeline(env, question, history, schema);
            && run.Success?
            && run.value.querier == Some(QuerierOutput([ErrorPrefix + message], [sql]))
            && OutcomeOf(run.value) == SqlError(ErrorPrefix + message, sql)
  {
    ExtractTaggedBlock(before, sql, after);
    RaisedRoutesToError(message, []);
    assert [Render(Raised(message))] + [] == [ErrorPrefix + message];
    OutcomeOfPipeline(env, question, history, schema, docs, replies);
  }

  /** The history given to the SQL prompt ends with the question being asked:
      its last conversation line is the user's question, directly before the
      question marker. */
  lemma PromptHistoryEndsWithQuestion(t: SqlTexts, history: seq<Message>, question: string, schema: string, docs: seq<Document>)
    ensures var payload := Payload(history + [Message(User, question)]);
            var lines := HistoryLines(payload);
            var line := HistoryLine(HistoryEntry("user", question));
            && OccursAt(RenderSql(t, payload, question, schema, docs), line, |t.preamble| + PartOffset(lines, |history|))
            && |t.preamble| + PartOffset(lines, |history|) + |line| == SqlOffset(t, payload, question, schema, docs, 2)
  {
    var payload := Payload(history + [Message(User, question)]);
    var lines := HistoryLines(payload);
    var segs := SqlSegments(t, payload, question, schema, docs);
    HistoryRenderedInOrder(t, payload, question, schema, docs, |history|);
    PreambleFirst(t, payload, question, schema, docs);
    assert segs[..2][..1] == segs[..1];
    assert lines[..|lines| - 1] == lines[..|history|];
  }

  /** A turn of the chat loop for a non-empty question: append the question,
      run the pipeline, append the chosen assistant text when it is not
      empty, and save the whole history. A raised pipeline or save appends
      `Error: ...` to the history (not saved); a failed save leaves the store
      as it was. */
  method AnswerQuestion(sid: SessionId, history: seq<Message>, store: Store, question: string, env: Env, saveFault: Option<Fault>)
    returns (newHistory: seq<Message>, newStore: Store)
    ensures question == "" ==> newHistory == history && newStore == store
    ensures question != "" ==> |history| + 1 <= |newHistory| <= |history| + 3
    ensures question != "" ==> newHistory[..|history| + 1] == history + [Message(User, question)]
    ensures forall other :: other != sid ==> RowsOf(newStore, other) == RowsOf(store, other)
    ensures newStore == store || RowsOf(newStore, sid) == HistoryRows(newHistory)
    ensures var h1 := history + [Message(User, question)];
            var run := RunPipeline(env, question, Payload(h1), TableSchema(SchemaTable, env.inspect(SchemaTable)));
            question != "" && run.Failure? ==>
              newStore == store && newHistory == h1 + [Message(Assistant, ErrorTextPrefix + run.error)]
    ensures var h1 := history + [Message(User, question)];
            var run := RunPipeline(env, question, Payload(h1), TableSchema(SchemaTable, env.inspect(SchemaTable)));
            question != "" && run.Success? ==>
              var h2 := AppendAssistant(h1, AssistantText(OutcomeOf(run.value)));
              (saveFault.None? || saveFault.value.statement > |h2|) ==>
                && WellFormed(run.value)
                && newHistory == h2
                && RowsOf(newStore, sid) == HistoryRows(h2)
    ensures var h1 := history + [Message(User, question)];
            var run := RunPipeline(env, question, Payload(h1), TableSchema(SchemaTable, env.inspect(SchemaTable)));
            question != "" && run.Success? && saveFault.Some? ==>
              var h2 := AppendAssistant(h1, AssistantText(OutcomeOf(run.value)));
              saveFault.value.statement <= |h2| ==>
                newStore == store && newHistory == h2 + [Message(Assistant, ErrorTextPrefix + saveFault.value.message)]
  {
    if question == "" {
      return history, store;
    }
    var h1 := history + [Message(User, question)];
    var run := RunPipeline(env, question, Payload(h1), TableSchema(SchemaTable, env.inspect(SchemaTable)));
    newHistory, newStore := SaveTurn(sid, h1, store, run, saveFault);
    assert newHistory[..|history| + 1] == newHistory[..|h1|];
  }

  /** The end of a turn once the pipeline has returned or raised: append the
      chosen assistant text and save, or append `Error: ...` for whatever
      raised. Only a save that went through changes the store. */
  method SaveTurn(sid: SessionId, h1: seq<Message>, store: Store, run: Result<Run, string>, saveFault: Option<Fault>)
    returns (newHistory: seq<Message>, newStore: Store)
    requires run.Success? ==> WellFormed(run.value)
    ensures |h1| <= |newHistory| <= |h1| + 2
    ensures newHistory[..|h1|] == h1
    ensures forall other :: other != sid ==> RowsOf(newStore, other) == RowsOf(store, other)
    ensures newStore == store || RowsOf(newStore, sid) == HistoryRows(newHistory)
    ensures run.Failure? ==> newStore == store && newHistory == h1 + [Message(Assistant, ErrorTextPrefix + run.error)]
    ensures run.Success? ==>
              var h2 := AppendAssistant(h1, AssistantText(OutcomeOf(run.value)));
              (saveFault.None? || saveFault.value.statement > |h2|) ==>
                newHistory == h2 && RowsOf(newStore, sid) == HistoryRows(h2)
    ensures run.Success? && saveFault.Some? ==>
              var h2 := AppendAssistant(h1, AssistantText(OutcomeOf(run.value)));
              saveFault.value.statement <= |h2| ==>
                newStore == store && newHistory == h2 + [Message(Assistant, ErrorTextPrefix + saveFault.value.message)]
  {
    if run.Failure? {
      newHistory := h1 + [Message(Assistant, ErrorTextPrefix + run.error)];
      assert newHistory[..|h1|] == h1;
      return newHistory, store;
    }
    var h2 := AppendAssistant(h1, AssistantText(OutcomeOf(run.value)));
    assert h2[..|h1|] == h1;
    var after, raised := SaveChatHistory(store, sid, h2, saveFault);
    if raised.Some? {
      newHistory := h2 + [Message(Assistant, ErrorTextPrefix + raised.value)];
      assert newHistory[..|h1|] == h1;
      return newHistory, store;
    }
    return h2, after;
  }
}

=== FILE: prompts.dfy ===
/** The two prompt templates (template/prompt.py) as pure renderers. Each
    prompt is the concatenation of a fixed list of segments: the template's
    fixed texts and the substituted values. The renderers take the fixed texts
    as a value, so the properties below hold for the templates' texts and for
    any other texts in their place. Line breaks follow the templates as Jinja
    renders them without `trim_blocks`, so the line break after each
    `{% for %}` and `{% endfor %}` tag is kept; the lines' indentation is not
    reproduced. A Jinja subscript of an empty list renders
    as the empty text. */
module Prompts {
  import opened Text

  /** One element of the `history` list given to the template. */
  datatype HistoryEntry = HistoryEntry(role: string, content: string)

  /** A retrieved document; only its `content` is rendered. */
  datatype Document = Document(id: string, content: string)

  // ---------------------------------------------------------------------------
  // SQL_PROMPT_TEMPLATE

  /** The fixed texts of the SQL template, in the order they appear. */
  datatype SqlTexts = SqlTexts(
    preamble: string,
    questionMarker: string,
    schemaTitle: string,
    delimiter: string,
    knowledgeTitle: string,
    rules: seq<string>)

  const Preamble: string :=
    "You are an expert SQL assistant.\n"
    + "Your task: generate a PostgreSQL query that answers the latest USER question,\n"
    + "considering the full multi-turn conversation below.\n\n"
    + "Conversation so far (oldest first):\n"
  const SentinelRule: string := "- If the answer cannot be obtained from the given table/columns, output exactly: no_answer\n"
  const StartRule: string := "- Start query with SELECT or WITH.\n"
  const RuleLines: seq<string> := [
    "\nRules:\n",
    SentinelRule,
    "- Return ONLY a valid SQL query (or no_answer). No narration.\n",
    StartRule,
    "- Prefer explicit column names, avoid SELECT * unless necessary.\n",
    "- Use table name violations.\n"
  ]

  /** `SQL_PROMPT_TEMPLATE`'s own texts. */
  const SqlTemplate: SqlTexts := SqlTexts(
    Preamble,
    "\n\nLatest user question: ",
    "\n\nDatabase schema for table `violations`:\n",
    "---\n",
    "\nRetrieved knowledge base context:\n",
    RuleLines)

  /** `Role: {{m.role}} | Content: {{m.content}}` with the loop's line breaks. */
  function HistoryLine(e: HistoryEntry): string {
    "\nRole: " + e.role + " | Content: " + e.content + "\n"
  }

  /** The `{% for m in history %}` block, oldest entry first. */
  function HistoryLines(history: seq<HistoryEntry>): (lines: seq<string>)
    ensures |lines| == |history|
    ensures forall i :: 0 <= i < |history| ==> lines[i] == HistoryLine(history[i])
  {
    seq(|history|, i requires 0 <= i < |history| => HistoryLine(history[i]))
  }

  /** `{{ doc.content }}` with the loop's line breaks. */
  function DocumentLine(d: Document): string {
    "\n" + d.content + "\n"
  }

  /** The `{% for doc in documents %}` block, in retrieval order. */
  function DocumentLines(docs: seq<Document>): (lines: seq<string>)
    ensures |lines| == |docs|
    ensures forall i :: 0 <= i < |docs| ==> lines[i] == DocumentLine(docs[i])
  {
    seq(|docs|, i requires 0 <= i < |docs| => DocumentLine(docs[i]))
  }

  function SqlSegments(t: SqlTexts, history: seq<HistoryEntry>, question: string, schema: string, docs: seq<Document>): seq<string>
  {
    [ t.preamble, Concat(HistoryLines(history)),
      t.questionMarker, question,
      t.schemaTitle, t.delimiter, schema, "\n", t.delimiter,
      t.knowledgeTitle, t.delimiter, Concat(DocumentLines(docs)), "\n", t.delimiter,
      Concat(t.rules) ]
  }

  /** The SQL template with fixed texts `t`, rendered with `history`,
      `question`, `schema` and `documents`. */
  function RenderSql(t: SqlTexts, history: seq<HistoryEntry>, question: string, schema: string, docs: seq<Document>): (p: string)
    ensures OccursAt(p, t.preamble, 0)
    ensures OccursAt(p, Concat(t.rules), |p| - |Concat(t.rules)|)
  {
    var segs := SqlSegments(t, history, question, schema, docs);
    assert segs[..0] == [];
    ConcatPartAt(segs, 0);
    ConcatEndsWithLast(segs);
    Concat(segs)
  }

  /** `SQL_PROMPT_TEMPLATE` rendered: it opens with the template's first lines
      whatever is substituted. */
  function SqlPrompt(history: seq<HistoryEntry>, question: string, schema: string, docs: seq<Document>): (p: string)
    ensures OccursAt(p, Preamble, 0)
  {
    RenderSql(SqlTemplate, history, question, schema, docs)
  }

  /** Offset of segment `i` of the rendered SQL template. */
  function SqlOffset(t: SqlTexts, history: seq<HistoryEntry>, question: string, schema: string, docs: seq<Document>, i: nat): nat
    requires i <= 15
  {
    PartOffset(SqlSegments(t, history, question, schema, docs), i)
  }

  /** The history block starts right after the preamble. */
  lemma PreambleFirst(t: SqlTexts, history: seq<HistoryEntry>, question: string, schema: string, docs: seq<Document>)
    ensures SqlOffset(t, history, question, schema, docs, 1) == |t.preamble|
  {
    var segs := SqlSegments(t, history, question, schema, docs);
    assert segs[..1] == [t.preamble];
    ConcatSingle(t.preamble);
  }

  /** Conversation entries are rendered oldest first, each as its own line,
      at the offset left by the preamble and the entries before it. */
  lemma HistoryRenderedInOrder(t: SqlTexts, history: seq<HistoryEntry>, question: string, schema: string, docs: seq<Document>, i: nat)
    requires i < |history|
    ensures OccursAt(RenderSql(t, history, question, schema, docs), HistoryLine(history[i]),
                     |t.preamble| + PartOffset(HistoryLines(history), i))
  {
    var segs := SqlSegments(t, history, question, schema, docs);
    var lines := HistoryLines(history);
    ConcatPartAt(segs, 1);
    PreambleFirst(t, history, question, schema, docs);
    ConcatPartAt(lines, i);
    OccursTransitive(Concat(segs), Concat(lines), HistoryLine(history[i]), |t.preamble|, PartOffset(lines, i));
  }

  /** More conversation renders as more lines appended to the block. */
  lemma HistoryBlockAppends(a: seq<HistoryEntry>, b: seq<HistoryEntry>)
    ensures Concat(HistoryLines(a + b)) == Concat(HistoryLines(a)) + Concat(HistoryLines(b))
  {
    assert HistoryLines(a + b) == HistoryLines(a) + HistoryLines(b);
    ConcatAppend(HistoryLines(a), HistoryLines(b));
  }

  /** The question appears verbatim right after the question marker. */
  lemma QuestionFollowsMarker(t: SqlTexts, history: seq<HistoryEntry>, question: string, schema: string, docs: seq<Document>)
    ensures OccursAt(RenderSql(t, history, question, schema, docs), t.questionMarker + question,
                     SqlOffset(t, history, question, schema, docs, 2))
  {
    var segs := SqlSegments(t, history, question, schema, docs);
    ConcatRangeAt(segs, 2, 4);
    assert segs[2..4] == [t.questionMarker, question];
    ConcatTwo(t.questionMarker, question);
  }

  /** The schema text appears verbatim between two delimiter lines. */
  lemma SchemaBetweenDelimiters(t: SqlTexts, history: seq<HistoryEntry>, question: string, schema: string, docs: seq<Document>)
    ensures OccursAt(RenderSql(t, history, question, schema, docs), t.delimiter + schema + "\n" + t.delimiter,
                     SqlOffset(t, history, question, schema, docs, 5))
  {
    var segs := SqlSegments(t, history, question, schema, docs);
    ConcatRangeAt(segs, 5, 9);
    assert segs[5..9] == [t.delimiter, schema, "\n", t.delimiter];
    ConcatFour(t.delimiter, schema, "\n", t.delimiter);
  }

  /** The knowledge block sits between two delimiter lines; the line break
      that closes the loop comes before the second one. */
  lemma KnowledgeBetweenDelimiters(t: SqlTexts, history: seq<HistoryEntry>, question: string, schema: string, docs: seq<Document>)
    ensures OccursAt(RenderSql(t, history, question, schema, docs), t.delimiter + Concat(DocumentLines(docs)) + "\n" + t.delimiter,
                     SqlOffset(t, history, question, schema, docs, 10))
  {
    var segs := SqlSegments(t, history, question, schema, docs);
    var block := Concat(DocumentLines(docs));
    ConcatRangeAt(segs, 10, 14);
    assert segs[10..14] == [t.delimiter, block, "\n", t.delimiter];
    ConcatFour(t.delimiter, block, "\n", t.delimiter);
  }

  /** Every retrieved document's content appears in the knowledge block, in
      retrieval order. */
  lemma DocumentsInRetrievalOrder(docs: seq<Document>, i: nat)
    requires i < |docs|
    ensures OccursAt(Concat(DocumentLines(docs)), DocumentLine(docs[i]), PartOffset(DocumentLines(docs), i))
  {
    ConcatPartAt(DocumentLines(docs), i);
  }

  /** With no documents the knowledge block is empty: only the loop's closing
      line break separates the two delimiter lines. */
  lemma NoDocumentsEmptyBlock(t: SqlTexts, history: seq<HistoryEntry>, question: string, schema: string)
    ensures OccursAt(RenderSql(t, history, question, schema, []), t.delimiter + "\n" + t.delimiter,
                     SqlOffset(t, history, question, schema, [], 10))
  {
    KnowledgeBetweenDelimiters(t, history, question, schema, []);
    assert Concat(DocumentLines([])) == "";
  }

  /** Whatever the inputs, the rendered template ends with its rules, each
      rule at its own offset inside them. */
  lemma RuleAt(t: SqlTexts, history: seq<HistoryEntry>, question: string, schema: string, docs: seq<Document>, i: nat)
    requires i < |t.rules|
    ensures var p := RenderSql(t, history, question, schema, docs);
            var rules := Concat(t.rules);
            && OccursAt(p, rules, |p| - |rules|)
            && OccursAt(p, t.rules[i], |p| - |rules| + PartOffset(t.rules, i))
  {
    var segs := SqlSegments(t, history, question, schema, docs);
    var p := Concat(segs);
    var rules := Concat(t.rules);
    ConcatEndsWithLast(segs);
    ConcatPartAt(t.rules, i);
    OccursTransitive(p, rules, t.rules[i], |p| - |rules|, PartOffset(t.rules, i));
  }

  /** The SQL prompt always carries the `no_answer` instruction and the
      SELECT/WITH instruction, inside the rules that end it. */
  lemma RulesAlwaysLast(history: seq<HistoryEntry>, question: string, schema: string, docs: seq<Document>)
    ensures var p := SqlPrompt(history, question, schema, docs);
            var rules := Concat(RuleLines);
            && OccursAt(p, SentinelRule, |p| - |rules| + PartOffset(RuleLines, 1))
            && OccursAt(p, StartRule, |p| - |rules| + PartOffset(RuleLines, 3))
  {
    RuleAt(SqlTemplate, history, question, schema, docs, 1);
    RuleAt(SqlTemplate, history, question, schema, docs, 3);
  }

  // ---------------------------------------------------------------------------
  // EXPLAIN_PROMPT_TEMPLATE

  /** The fixed texts of the explanation template, in the order they appear. */
  datatype ExplainTexts = ExplainTexts(preamble: string, resultMarker: string, closing: string)

  /** `EXPLAIN_PROMPT_TEMPLATE`'s own texts; the preamble ends with `User question: `. */
  const ExplainTemplate: ExplainTexts := ExplainTexts(
    "\nYou are an assistant specialized in explaining SQL results in a natural way.\n"
    + "Task:\n"
    + "- Read the user's question and the returned SQL result.\n"
    + "- Provide a concise, easy-to-understand answer, as a human would respond directly.\n"
    + "- Do not repeat the question, do not restate the raw result, only give the natural answer.\n\n"
    + "User question: ",
    "\nSQL Result: ",
    "\n\nPlease answer:\n")

  /** `{{result[0]}}`: the first result string, or nothing for an empty list. */
  function FirstResult(result: seq<string>): string {
    if |result| > 0 then result[0] else ""
  }

  function ExplainSegments(t: ExplainTexts, question: string, result: seq<string>): seq<string> {
    [t.preamble, question, t.resultMarker, FirstResult(result), t.closing]
  }

  /** The explanation template with fixed texts `t`, rendered with `question` and `result`. */
  function RenderExplain(t: ExplainTexts, question: string, result: seq<string>): (p: string)
    ensures OccursAt(p, t.preamble, 0)
    ensures OccursAt(p, t.closing, |p| - |t.closing|)
  {
    var segs := ExplainSegments(t, question, result);
    assert segs[..0] == [];
    ConcatPartAt(segs, 0);
    ConcatEndsWithLast(segs);
    Concat(segs)
  }

  /** `EXPLAIN_PROMPT_TEMPLATE` rendered. An empty result list renders as a
      single empty result. */
  function ExplainPrompt(question: string, result: seq<string>): (p: string)
    ensures OccursAt(p, ExplainTemplate.closing, |p| - |ExplainTemplate.closing|)
    ensures |result| == 0 ==> p == RenderExplain(ExplainTemplate, question, [""])
  {
    RenderExplain(ExplainTemplate, question, result)
  }

  /** Only the first result string is substituted: results after it never
      influence the prompt. */
  lemma ExplainUsesFirstResultOnly(question: string, a: seq<string>, b: seq<string>)
    requires |a| > 0 && |b| > 0 && a[0] == b[0]
    ensures ExplainPrompt(question, a) == ExplainPrompt(question, b)
  {
  }

  /** The question follows the preamble and the first result follows the
      result marker, both verbatim. */
  lemma ExplainSubstitutions(t: ExplainTexts, question: string, result: seq<string>)
    requires |result| > 0
    ensures OccursAt(RenderExplain(t, question, result), t.preamble + question, 0)
    ensures OccursAt(RenderExplain(t, question, result), t.resultMarker + result[0], |t.preamble| + |question|)
  {
    var segs := ExplainSegments(t, question, result);
    ConcatRangeAt(segs, 0, 2);
    ConcatRangeAt(segs, 2, 4);
    assert segs[0..2] == segs[..2] == [t.preamble, question];
    assert segs[2..4] == [t.resultMarker, result[0]];
    assert segs[..0] == [];
    ConcatTwo(t.preamble, question);
    ConcatTwo(t.resultMarker, result[0]);
  }
}

=== FILE: regex.dfy ===
/** The one regular-expression shape the log parser uses: `re.search` of
    `open(.*?)close` where `open` and `close` are literal texts. Python's
    backtracking engine reports the match with the leftmost start and, for that
    start, the shortest group (the lazy `.*?` tries the shortest text first).
    Without `re.DOTALL` the `.` does not match a newline character. */
module Regex {
  import opened Wrappers
  import opened Text

  /** No newline character in `s[lo..hi]`. */
  predicate NoNewline(s: string, lo: int, hi: int)
    requires 0 <= lo <= hi <= |s|
  {
    forall k :: lo <= k < hi ==> s[k] != '\n'
  }

  /** Every way `open(.*?)close` can match `s`: `open` starts at `i` and the
      group is `s[i + |open|..j]`, followed by `close` at `j`. */
  predicate IsMatch(s: string, open: string, close: string, dotAll: bool, i: int, j: int) {
    && OccursAt(s, open, i)
    && i + |open| <= j
    && OccursAt(s, close, j)
    && (dotAll || NoNewline(s, i + |open|, j))
  }

  /** The lazy `.*?` started at `k`: stop at the first `close`, give up at a
      newline (without DOTALL) or at the end of the text. */
  function LazyEnd(s: string, close: string, dotAll: bool, k: nat): (r: Option<nat>)
    requires k <= |s|
    decreases |s| - k
    ensures r.Some? ==> k <= r.value && OccursAt(s, close, r.value)
    ensures r.Some? ==> dotAll || NoNewline(s, k, r.value)
    ensures r.Some? ==> forall m :: k <= m < r.value ==> !OccursAt(s, close, m)
    ensures r.None? ==> forall m :: k <= m <= |s| && OccursAt(s, close, m) ==> !dotAll && !NoNewline(s, k, m)
  {
    if OccursAt(s, close, k) then Some(k)
    else if k < |s| && (dotAll || s[k] != '\n') then LazyEnd(s, close, dotAll, k + 1)
    else None
  }

  /** `re.search` restricted to start positions `i` and later. */
  function SearchFrom(s: string, open: string, close: string, dotAll: bool, i: nat): (r: Option<(nat, nat)>)
    requires i <= |s|
    decreases |s| - i
    ensures r.Some? ==> i <= r.value.0 && IsMatch(s, open, close, dotAll, r.value.0, r.value.1)
    ensures r.Some? ==> forall i', j' :: i <= i' < r.value.0 ==> !IsMatch(s, open, close, dotAll, i', j')
    ensures r.Some? ==> forall j' :: j' < r.value.1 ==> !IsMatch(s, open, close, dotAll, r.value.0, j')
    ensures r.None? ==> forall i', j' :: i <= i' ==> !IsMatch(s, open, close, dotAll, i', j')
  {
    var m := if OccursAt(s, open, i) then LazyEnd(s, close, dotAll, i + |open|) else None;
    if m.Some? then Some((i, m.value))
    else if i < |s| then SearchFrom(s, open, close, dotAll, i + 1)
    else None
  }

  /** `re.search(open + "(.*?)" + close, s)`: where the leftmost, shortest
      match starts and where its `close` starts, or `None` when nothing matches. */
  function Search(s: string, open: string, close: string, dotAll: bool): (r: Option<(nat, nat)>)
    ensures r.Some? ==> IsMatch(s, open, close, dotAll, r.value.0, r.value.1)
    ensures r.Some? ==> forall i', j' :: i' < r.value.0 ==> !IsMatch(s, open, close, dotAll, i', j')
    ensures r.Some? ==> forall j' :: j' < r.value.1 ==> !IsMatch(s, open, close, dotAll, r.value.0, j')
    ensures r.None? ==> forall i', j' :: !IsMatch(s, open, close, dotAll, i', j')
  {
    SearchFrom(s, open, close, dotAll, 0)
  }

  /** `m.group(1)` of a match found by `Search`. */
  function Group(s: string, open: string, close: string, dotAll: bool, m: (nat, nat)): string
    requires IsMatch(s, open, close, dotAll, m.0, m.1)
  {
    s[m.0 + |open|..m.1]
  }

  /** A match with no `open` anywhere before it and no `close` between its
      `open` and its end is exactly the one `re.search` reports. */
  lemma SearchFinds(s: string, open: string, close: string, dotAll: bool, i: nat, j: nat)
    requires IsMatch(s, open, close, dotAll, i, j)
    requires forall k :: 0 <= k < i ==> !OccursAt(s, open, k)
    requires forall k :: i + |open| <= k < j ==> !OccursAt(s, close, k)
    ensures Search(s, open, close, dotAll) == Some((i, j))
  {
    var r := Search(s, open, close, dotAll);
    assert IsMatch(s, open, close, dotAll, i, j);
    assert r.value.0 <= i && r.value.1 <= j;
  }

  /** No `close` starts inside `g`, not even one that runs into a `close`
      written right after it. */
  predicate CloseFree(g: string, close: string) {
    forall k :: 0 <= k < |g| ==> !OccursAt(g + close, close, k)
  }

  /** The lazy group never contains its closing text; without DOTALL it
      never contains a newline either. */
  lemma GroupLacksClose(s: string, open: string, close: string, dotAll: bool)
    requires |close| > 0
    requires Search(s, open, close, dotAll).Some?
    ensures var m := Search(s, open, close, dotAll).value;
            && !Contains(Group(s, open, close, dotAll, m), close)
            && (!dotAll ==> !Contains(Group(s, open, close, dotAll, m), "\n"))
  {
    var m := Search(s, open, close, dotAll).value;
    var g0 := m.0 + |open|;
    var g := Group(s, open, close, dotAll, m);
    forall k | 0 <= k && k + |close| <= |g|
      ensures !OccursAt(g, close, k)
    {
      assert !IsMatch(s, open, close, dotAll, m.0, g0 + k);
      OccursInSliceIff(s, g0, m.1, close, k);
    }
    ContainsIff(g, close);
    if !dotAll {
      forall k | 0 <= k && k + 1 <= |g|
        ensures !OccursAt(g, "\n", k)
      {
        assert g[k..k + 1][0] == g[k] == s[g0 + k];
      }
      ContainsIff(g, "\n");
    }
  }

  /** A line written as `before + open + g + close + after` gives back `g`,
      provided no `open` starts inside `before`, no `close` starts inside
      `g`, and (without DOTALL) `g` is on one line. */
  lemma SearchFindsRendered(before: string, open: string, g: string, close: string, after: string, dotAll: bool)
    requires forall k :: 0 <= k < |before| ==> !OccursAt(before + open + g + close + after, open, k)
    requires CloseFree(g, close)
    requires dotAll || forall k :: 0 <= k < |g| ==> g[k] != '\n'
    ensures var s := before + open + g + close + after;
            && IsMatch(s, open, close, dotAll, |before|, |before| + |open| + |g|)
            && Search(s, open, close, dotAll) == Some((|before|, |before| + |open| + |g|))
            && Group(s, open, close, dotAll, (|before|, |before| + |open| + |g|)) == g
  {
    var s := before + open + g + close + after;
    var i := |before|;
    var g0 := i + |open|;
    var j := g0 + |g|;
    assert s[i..g0] == open;
    assert s[g0..j] == g;
    assert s[j..j + |close|] == close;
    if !dotAll {
      forall k | g0 <= k < j
        ensures s[k] != '\n'
      {
        assert s[k] == g[k - g0];
      }
    }
    forall k | g0 <= k < j
      ensures !OccursAt(s, close, k)
    {
      assert !OccursAt(g + close, close, k - g0);
      if k + |close| <= |s| {
        assert s[k..k + |close|] == (g + close)[k - g0..k - g0 + |close|];
      }
    }
    SearchFinds(s, open, close, dotAll, i, j);
  }
}

=== FILE: routing.dfy ===
/** The two `ConditionalRouter`s of the pipeline (app_ollama.py): the
    answerability router after SQL extraction and the error router after
    execution. Each has two routes whose conditions are complementary; the
    first route whose condition holds is taken, and a router whose conditions
    cannot be evaluated (an empty input list) makes the pipeline raise, which
    is modelled as `None`. */
module Routing {
  import opened Wrappers
  import opened Text
  import opened Numerals
  import opened Executor

  const Sentinel: string := "no_answer"

  const NoAnswerMessage: string := "I cannot answer this question based on the available data. The database contains information about violations with columns for id, employee_name, department, violation_type, area, violation_time, and status. Please try asking a question related to these fields."

  const ErrorMarker: string := "SQL Error:"

  // ---------------------------------------------------------------------------
  // Answerability router (`routes`)

  datatype AnswerRoute = SqlRoute(sql: seq<string>) | NoAnswerRoute(message: string)

  /** `'no_answer' in q.lower()`: the sentinel in any capitalisation, so in
      particular the sentinel written as it is. */
  predicate MentionsSentinel(q: string)
    ensures Contains(q, Sentinel) ==> MentionsSentinel(q)
  {
    LowerKeepsSentinel(q);
    Contains(Lower(q), Sentinel)
  }

  /** Lower-casing keeps the (already lower-case) sentinel. */
  lemma LowerKeepsSentinel(q: string)
    ensures Contains(q, Sentinel) ==> Contains(Lower(q), Sentinel)
  {
    if Contains(q, Sentinel) {
      var k := FindFrom(q, Sentinel, 0).value;
      assert OccursAt(q, Sentinel, k);
      LowerKeepsOccurrence(q, Sentinel, k);
      assert Lower(Sentinel) == Sentinel;
      ContainsIff(Lower(q), Sentinel);
    }
  }

  function RouteAnswerability(strQueries: seq<string>): (r: Option<AnswerRoute>)
    ensures r.Some? <==> |strQueries| > 0
    ensures r.Some? ==> (r.value.NoAnswerRoute? <==> MentionsSentinel(strQueries[0]))
    ensures r.Some? && r.value.NoAnswerRoute? ==> r.value.message == NoAnswerMessage
    ensures r.Some? && r.value.SqlRoute? ==> r.value.sql == [strQueries[0]]
  {
    if |strQueries| == 0 then None
    else
      var q := strQueries[0];
      if !MentionsSentinel(q) then Some(SqlRoute([q]))
      else Some(NoAnswerRoute(NoAnswerMessage))
  }

  /** Only the first extracted string is looked at. */
  lemma RouteDependsOnFirstOnly(a: seq<string>, b: seq<string>)
    requires |a| > 0 && |b| > 0 && a[0] == b[0]
    ensures RouteAnswerability(a) == RouteAnswerability(b)
  {
  }

  /** The sentinel is recognised in any capitalisation, anywhere in the text. */
  lemma SentinelAnyCase(q: string, written: string, k: int)
    requires OccursAt(q, written, k)
    requires Lower(written) == Sentinel
    ensures RouteAnswerability([q]) == Some(NoAnswerRoute(NoAnswerMessage))
  {
    LowerKeepsOccurrence(q, written, k);
    ContainsIff(Lower(q), Sentinel);
  }

  // ---------------------------------------------------------------------------
  // Error router (`error_routes`)

  datatype ErrorRoute = SqlErrorRoute(error: string) | ResultsOk(results: seq<string>)

  function RouteErrors(results: seq<string>): (r: Option<ErrorRoute>)
    ensures r.Some? <==> |results| > 0
    ensures r.Some? ==> (r.value.SqlErrorRoute? <==> Contains(results[0], ErrorMarker))
    ensures r.Some? && r.value.SqlErrorRoute? ==> r.value.error == results[0]
    ensures r.Some? && r.value.ResultsOk? ==> r.value.results == results
  {
    if |results| == 0 then None
    else if Contains(results[0], ErrorMarker) then Some(SqlErrorRoute(results[0]))
    else Some(ResultsOk(results))
  }

  /** A raising statement is always routed to `sql_error`. */
  lemma RaisedRoutesToError(m: string, rest: seq<string>)
    ensures RouteErrors([Render(Raised(m))] + rest) == Some(SqlErrorRoute(ErrorPrefix + m))
  {
    assert OccursAt(ErrorPrefix + m, ErrorMarker, 0) by {
      assert (ErrorPrefix + m)[..|ErrorMarker|] == ErrorMarker;
    }
    ContainsIff(ErrorPrefix + m, ErrorMarker);
  }

  /** The row-count message never contains the marker: no `S` occurs in it. */
  lemma AffectedNeverRoutesToError(n: int, rest: seq<string>)
    ensures RouteErrors([Render(Affected(n))] + rest) == Some(ResultsOk([Render(Affected(n))] + rest))
  {
    var s := Render(Affected(n));
    var digits := IntToString(n);
    assert s == AffectedPrefix + digits + AffectedSuffix;
    assert forall k :: 0 <= k < |AffectedPrefix| ==> AffectedPrefix[k] != 'S';
    assert forall k :: 0 <= k < |AffectedSuffix| ==> AffectedSuffix[k] != 'S';
    assert forall k :: 0 <= k < |digits| ==> digits[k] != 'S';
    forall k | 0 <= k < |s|
      ensures s[k] != 'S'
    {
      if k < |AffectedPrefix| {
        assert s[k] == AffectedPrefix[k];
      } else if k < |AffectedPrefix| + |digits| {
        assert s[k] == digits[k - |AffectedPrefix|];
      } else {
        assert s[k] == AffectedSuffix[k - |AffectedPrefix| - |digits|];
      }
    }
    forall k | 0 <= k && k + |ErrorMarker| <= |s|
      ensures !OccursAt(s, ErrorMarker, k)
    {
      assert s[k..k + |ErrorMarker|][0] == s[k];
    }
    ContainsIff(s, ErrorMarker);
  }

  /** The test is a substring test, not a prefix test: a successful query
      whose rendered table mentions the marker is routed as an error too. */
  lemma TableMentioningMarkerRoutesToError(before: string, after: string)
    ensures RouteErrors([Render(Rows(before + ErrorMarker + after))]).value.SqlErrorRoute?
  {
    var t := before + ErrorMarker + after;
    assert t[|before|..|before| + |ErrorMarker|] == ErrorMarker;
    assert OccursAt(t, ErrorMarker, |before|);
    ContainsIff(t, ErrorMarker);
  }
}

=== FILE: schema.dfy ===
/** `get_table_schema` (app_ollama.py): the text description of a table's
    columns that is placed in the SQL prompt. The database inspector is a
    collaborator: it either lists the columns, in its own order, or raises. */
module Schema {
  import opened Wrappers
  import opened Text

  /** One inspected column: its name and `str()` of its SQL type. */
  datatype Column = Column(name: string, sqlType: string)

  function Header(table: string): string {
    "Table \"" + table + "\" has the following columns:\n"
  }

  function ColumnLine(c: Column): string {
    "- " + c.name + " (" + c.sqlType + ")\n"
  }

  function ColumnLines(columns: seq<Column>): (lines: seq<string>)
    ensures |lines| == |columns|
    ensures forall i :: 0 <= i < |columns| ==> lines[i] == ColumnLine(columns[i])
  {
    seq(|columns|, i requires 0 <= i < |columns| => ColumnLine(columns[i]))
  }

  const FailureLead: string := "Could not inspect table '"

  /** The text returned when the inspector raised: it names the table after
      a fixed lead and ends with the exception's message. */
  function FailureText(table: string, error: string): (text: string)
    ensures |text| >= |FailureLead| + |table| + |error|
    ensures text[..|FailureLead|] == FailureLead
    ensures text[|FailureLead|..|FailureLead| + |table|] == table
    ensures text[|text| - |error|..] == error
  {
    FailureLead + table + "'. Error: " + error
  }

  /** `get_table_schema(table)` given what the inspector did. */
  function TableSchema(table: string, inspected: Result<seq<Column>, string>): (text: string)
    ensures inspected.Success? ==> |text| >= |Header(table)| && text[..|Header(table)|] == Header(table)
    ensures inspected.Failure? ==> text == FailureText(table, inspected.error)
  {
    match inspected
    case Success(columns) => Header(table) + Concat(ColumnLines(columns))
    case Failure(e) => FailureText(table, e)
  }

  /** Each column's line appears in the description, in inspector order:
      column `i` sits right after the header and the lines of columns `0..i`. */
  lemma ColumnsListedInOrder(table: string, columns: seq<Column>, i: nat)
    requires i < |columns|
    ensures OccursAt(TableSchema(table, Success(columns)), ColumnLine(columns[i]),
                     |Header(table)| + PartOffset(ColumnLines(columns), i))
  {
    var lines := ColumnLines(columns);
    ConcatPartAt(lines, i);
    var body := Concat(lines);
    var o := PartOffset(lines, i);
    var line := ColumnLine(columns[i]);
    assert body[o..o + |line|] == line;
    var text := Header(table) + body;
    assert text[|Header(table)| + o..|Header(table)| + o + |line|] == body[o..o + |line|];
  }

  /** Describing more columns extends the description: the lines of a column
      list are the lines of its parts, in order. */
  lemma DescriptionAppends(table: string, a: seq<Column>, b: seq<Column>)
    ensures TableSchema(table, Success(a + b)) == TableSchema(table, Success(a)) + Concat(ColumnLines(b))
  {
    assert ColumnLines(a + b) == ColumnLines(a) + ColumnLines(b);
    ConcatAppend(ColumnLines(a), ColumnLines(b));
  }

  /** With no columns only the header remains. */
  lemma NoColumnsOnlyHeader(table: string)
    ensures TableSchema(table, Success([])) == Header(table)
  {
  }

}

=== FILE: sql_extract.dfy ===
/** `MDconverter` (app_ollama.py): pulls the SQL text out of each generator
    reply. The regular expression ```` ```(?:sql)?\s*(.*?)``` ```` is searched
    with DOTALL; on a match the group is stripped, otherwise the whole reply is.

    How Python's backtracking engine resolves the pattern: a match needs an
    opening fence and a closing fence at least three characters later, so the
    leftmost match starts at the first fence. From there the greedy `(?:sql)?`
    takes the tag when present, the greedy `\s*` takes the whole whitespace
    run, and the lazy `(.*?)` stops at the first fence after that. Backtracking
    into `\s*` or dropping the tag never helps: neither the tag nor whitespace
    contains a backtick, so the first closing fence is the same one. */
module SqlExtract {
  import opened Wrappers
  import opened Text

  const Fence: string := "```"
  const SqlTag: string := "sql"

  /** `e` is where the group starts when the opening fence ends at `p`: the
      `sql` tag is skipped when present, then all the whitespace after it,
      and nothing else. */
  predicate GroupStart(text: string, p: nat, e: nat)
    requires p <= |text|
  {
    var q := if OccursAt(text, SqlTag, p) then p + |SqlTag| else p;
    && q <= e <= |text|
    && (forall k :: q <= k < e ==> IsSpace(text[k]))
    && (e < |text| ==> !IsSpace(text[e]))
  }

  /** Where the group starts when the opening fence ends at `p`: after the
      optional `sql` tag and the longest whitespace run that follows. */
  function ContentStart(text: string, p: nat): (e: nat)
    requires p <= |text|
    ensures p <= e <= |text|
    ensures GroupStart(text, p, e)
    ensures forall k :: p <= k < e ==> text[k] != '`'
  {
    var q := if OccursAt(text, SqlTag, p) then p + |SqlTag| else p;
    assert forall k :: p <= k < q ==> text[k] == text[p..q][k - p] && text[k] in "sql";
    SkipSpace(text, q)
  }

  /** Some fence is followed, at least three characters later, by another:
      exactly the texts the regular expression matches. */
  ghost predicate HasFencedBlock(text: string) {
    exists i, j :: OccursAt(text, Fence, i) && i + |Fence| <= j && OccursAt(text, Fence, j)
  }

  /** The regular-expression match: the bounds of its group, or `None`. */
  function FencedBlock(text: string): (r: Option<(nat, nat)>)
    ensures r.Some? ==> r.value.0 <= r.value.1 <= |text|
    ensures r.Some? ==> OccursAt(text, Fence, r.value.1)
    ensures r.Some? ==> forall k :: r.value.0 <= k < r.value.1 ==> !OccursAt(text, Fence, k)
    ensures r.Some? ==> FindFrom(text, Fence, 0).Some?
    ensures r.Some? ==> GroupStart(text, FindFrom(text, Fence, 0).value + |Fence|, r.value.0)
  {
    match FindFrom(text, Fence, 0)
    case None => None
    case Some(i) =>
      var e := ContentStart(text, i + |Fence|);
      match FindFrom(text, Fence, e)
      case None => None
      case Some(j) => Some((e, j))
  }

  /** `extract_sql`: the stripped group of the first fenced block, or the
      whole stripped reply when there is no block. */
  function ExtractSql(text: string): (r: string)
    ensures IsStripped(r)
    ensures |r| <= |text|
  {
    match FencedBlock(text)
    case None => Strip(text)
    case Some((e, j)) => Strip(text[e..j])
  }

  /** `MDconverter.run`: one extracted string per reply, in reply order. */
  function Convert(replies: seq<string>): (queries: seq<string>)
    ensures |queries| == |replies|
    ensures forall i :: 0 <= i < |replies| ==> queries[i] == ExtractSql(replies[i])
  {
    seq(|replies|, i requires 0 <= i < |replies| => ExtractSql(replies[i]))
  }

  // ---------------------------------------------------------------------------
  // Properties

  /** The search succeeds exactly when the text has a fenced block. */
  lemma FencedBlockIff(text: string)
    ensures FencedBlock(text).Some? <==> HasFencedBlock(text)
  {
    if HasFencedBlock(text) {
      var i, j :| OccursAt(text, Fence, i) && i + |Fence| <= j && OccursAt(text, Fence, j);
      BlockFoundFrom(text, i, j);
    }
    if FencedBlock(text).Some? {
      FoundBlockIsBlock(text);
    }
  }

  /** Any pair of fences guarantees that the search finds a block. */
  lemma BlockFoundFrom(text: string, i: nat, j: nat)
    requires OccursAt(text, Fence, i) && i + |Fence| <= j && OccursAt(text, Fence, j)
    ensures FencedBlock(text).Some?
  {
    var i0 := FindFrom(text, Fence, 0).value;
    var e := ContentStart(text, i0 + |Fence|);
    // the closing fence starts with a backtick, so it lies at or after e
    assert text[j] == text[j..j + |Fence|][0] == '`';
    assert e <= j;
  }

  /** A block the search finds is a pair of fences. */
  lemma FoundBlockIsBlock(text: string)
    requires FencedBlock(text).Some?
    ensures HasFencedBlock(text)
  {
    var i0 := FindFrom(text, Fence, 0).value;
    assert OccursAt(text, Fence, i0);
    assert OccursAt(text, Fence, FencedBlock(text).value.1);
  }

  /** The group of a found block contains no fence at all. */
  lemma BlockContentHasNoFence(text: string)
    requires FencedBlock(text).Some?
    ensures !Contains(text[FencedBlock(text).value.0..FencedBlock(text).value.1], Fence)
  {
    var (e, j) := FencedBlock(text).value;
    var content := text[e..j];
    if Contains(content, Fence) {
      var k := FindFrom(content, Fence, 0).value;
      OccursInSlice(text, e, j, Fence, k);
    }
  }

  /** A text without any fence has no fenced block. */
  lemma BlockNeedsFence(s: string)
    ensures HasFencedBlock(s) ==> Contains(s, Fence)
  {
    if HasFencedBlock(s) {
      var i, j :| OccursAt(s, Fence, i) && i + |Fence| <= j && OccursAt(s, Fence, j);
      assert OccursAt(s, Fence, i);
    }
  }

  /** A block inside a slice is a block of the whole text. */
  lemma BlockInSlice(s: string, a: int, b: int)
    requires 0 <= a <= b <= |s|
    ensures HasFencedBlock(s[a..b]) ==> HasFencedBlock(s)
  {
    if HasFencedBlock(s[a..b]) {
      var i, j :| OccursAt(s[a..b], Fence, i) && i + |Fence| <= j && OccursAt(s[a..b], Fence, j);
      OccursInSlice(s, a, b, Fence, i);
      OccursInSlice(s, a, b, Fence, j);
    }
  }

  /** Without a block the reply is only stripped. */
  lemma ExtractWithoutBlock(text: string)
    requires !HasFencedBlock(text)
    ensures ExtractSql(text) == Strip(text)
  {
    FencedBlockIff(text);
  }

  /** Only one index can start the group. */
  lemma GroupStartUnique(text: string, p: nat, e1: nat, e2: nat)
    requires p <= |text|
    requires GroupStart(text, p, e1) && GroupStart(text, p, e2)
    ensures e1 == e2
  {
  }

  /** With a block the result is the stripped content of the first block: the
      text between the first fence (plus an optional `sql` tag and the
      whitespace after it) and the first fence after that. */
  lemma ExtractWithBlock(text: string)
    requires HasFencedBlock(text)
    ensures exists i: nat, e: nat, j: nat ::
      && FindFrom(text, Fence, 0) == Some(i)
      && i + |Fence| <= |text|
      && GroupStart(text, i + |Fence|, e)
      && FindFrom(text, Fence, e) == Some(j)
      && ExtractSql(text) == Strip(text[e..j])
  {
    FencedBlockIff(text);
    var i := FindFrom(text, Fence, 0).value;
    var e := ContentStart(text, i + |Fence|);
    var j := FindFrom(text, Fence, e).value;
    assert FencedBlock(text) == Some((e, j));
    assert ExtractSql(text) == Strip(text[e..j]);
  }

  /** No fence starts where there is no backtick. */
  lemma NoFenceWithoutBacktick(s: string, lo: int, hi: int)
    requires 0 <= lo <= hi <= |s|
    requires forall m :: lo <= m < hi ==> s[m] != '`'
    ensures forall m :: lo <= m < hi ==> !OccursAt(s, Fence, m)
  {
    forall m | lo <= m < hi && m + |Fence| <= |s|
      ensures !OccursAt(s, Fence, m)
    {
      assert s[m..m + |Fence|][0] == s[m];
    }
  }

  /** A reply that is already clean, with no backtick and no surrounding
      whitespace, passes through unchanged. */
  lemma ExtractPlain(s: string)
    requires forall k :: 0 <= k < |s| ==> s[k] != '`'
    requires IsStripped(s)
    ensures ExtractSql(s) == s
  {
    NoFenceWithoutBacktick(s, 0, |s|);
    ContainsIff(s, Fence);
    BlockNeedsFence(s);
    ExtractWithoutBlock(s);
    StripOfStripped(s);
  }

  /** After the tag and one line break the group starts at the first
      character that is not whitespace. */
  lemma ContentStartAfterTag(text: string, p: nat)
    requires OccursAt(text, SqlTag, p) && p + 4 <= |text| && text[p + 3] == '\n'
    requires p + 4 < |text| ==> !IsSpace(text[p + 4])
    ensures ContentStart(text, p) == p + 4
  {
    assert SkipSpace(text, p + 3) == SkipSpace(text, p + 4);
  }

  /** A first fence at `i`, the tag and a line break after it, and `n`
      characters without a backtick up to the next fence. */
  predicate TaggedShape(text: string, i: nat, n: nat) {
    && i + 10 + n <= |text|
    && OccursAt(text, Fence, i) && OccursAt(text, SqlTag, i + 3) && text[i + 6] == '\n'
    && OccursAt(text, Fence, i + 7 + n) && !IsSpace(text[i + 7])
    && (forall m :: 0 <= m < i ==> text[m] != '`')
    && (forall m :: i + 7 <= m < i + 7 + n ==> text[m] != '`')
  }

  /** In a text of that shape the group is exactly those `n` characters. */
  lemma TaggedBlockAt(text: string, i: nat, n: nat)
    requires TaggedShape(text, i, n)
    ensures FencedBlock(text) == Some((i + 7, i + 7 + n))
  {
    FenceFoundAfterPlain(text, 0, i);
    ContentStartAfterTag(text, i + |Fence|);
    FenceFoundAfterPlain(text, i + 7, i + 7 + n);
  }

  /** A fence after a stretch without a backtick is the next one found. */
  lemma FenceFoundAfterPlain(text: string, from: nat, k: nat)
    requires from <= k && OccursAt(text, Fence, k)
    requires forall m :: from <= m < k ==> text[m] != '`'
    ensures FindFrom(text, Fence, from) == Some(k)
  {
    NoFenceWithoutBacktick(text, from, k);
    FindFromFinds(text, Fence, from, k);
  }

  /** In a text of that shape whose content is stripped, extraction gives
      back the content. */
  lemma ExtractTaggedShape(text: string, i: nat, n: nat)
    requires TaggedShape(text, i, n)
    requires IsStripped(text[i + 7..i + 7 + n])
    ensures ExtractSql(text) == text[i + 7..i + 7 + n]
  {
    TaggedBlockAt(text, i, n);
    StripOfStripped(text[i + 7..i + 7 + n]);
  }

  /** Where the pieces of a reply with a tagged block sit, and what the
      search needs to know about them. */
  lemma TaggedLayout(text: string, before: string, sql: string, after: string)
    requires text == before + Fence + SqlTag + "\n" + sql + Fence + after
    requires forall k :: 0 <= k < |before| ==> before[k] != '`'
    requires forall k :: 0 <= k < |sql| ==> sql[k] != '`'
    requires IsStripped(sql)
    ensures TaggedShape(text, |before|, |sql|)
    ensures text[|before| + 7..|before| + 7 + |sql|] == sql
  {
    var i := |before|;
    assert text[i..i + 3] == Fence;
    assert text[i + 3..i + 6] == SqlTag;
    assert text[i + 7 + |sql|..i + 10 + |sql|] == Fence;
    assert forall m :: 0 <= m < i ==> text[m] == before[m];
    assert forall m :: i + 7 <= m < i + 7 + |sql| ==> text[m] == sql[m - i - 7];
    if |sql| > 0 {
      assert text[i + 7] == sql[0];
    } else {
      assert text[i + 7] == Fence[0];
    }
  }

  /** A reply with text before it, then a ```` ```sql ```` block on its own
      line, gives back the block's content, whatever follows the block. */
  lemma ExtractTaggedBlock(before: string, sql: string, after: string)
    requires forall k :: 0 <= k < |before| ==> before[k] != '`'
    requires forall k :: 0 <= k < |sql| ==> sql[k] != '`'
    requires IsStripped(sql)
    ensures ExtractSql(before + Fence + SqlTag + "\n" + sql + Fence + after) == sql
  {
    var text := before + Fence + SqlTag + "\n" + sql + Fence + after;
    TaggedLayout(text, before, sql, after);
    ExtractTaggedShape(text, |before|, |sql|);
  }

  /** Extraction never leaves a fenced block behind. */
  lemma ExtractedHasNoBlock(text: string)
    ensures !HasFencedBlock(ExtractSql(text))
  {
    var r := ExtractSql(text);
    FencedBlockIff(text);
    match FencedBlock(text)
    case None =>
      var a := SkipSpace(text, 0);
      var b := SkipSpaceBack(text, a, |text|);
      BlockInSlice(text, a, b);
    case Some((e, j)) =>
      BlockContentHasNoFence(text);
      StripKeepsAbsence(text[e..j], Fence);
      BlockNeedsFence(r);
  }

  /** Extracting twice is extracting once. */
  lemma ExtractIdempotent(text: string)
    ensures ExtractSql(ExtractSql(text)) == ExtractSql(text)
  {
    var r := ExtractSql(text);
    ExtractedHasNoBlock(text);
    ExtractWithoutBlock(r);
    StripOfStripped(r);
  }

  /** Running the converter on its own output changes nothing. */
  lemma ConvertIdempotent(replies: seq<string>)
    ensures Convert(Convert(replies)) == Convert(replies)
  {
    forall i | 0 <= i < |replies|
      ensures ExtractSql(ExtractSql(replies[i])) == ExtractSql(replies[i])
    {
      ExtractIdempotent(replies[i]);
    }
  }
}

=== FILE: text.dfy ===
/** String primitives with Python semantics: substring search, `str.strip()`,
    ASCII `str.lower()`, `str.replace()` and concatenation of many pieces.
    A Python `str` is a sequence of code points, modelled as `string`. */
module Text {
  import opened Wrappers

  /** Python's `str.isspace()`, which is also what `\s` matches in a `str` regex. */
  predicate IsSpace(c: char) {
    || c == ' ' || c == '\t' || c == '\n' || c == '\r' || c == '\U{000B}' || c == '\U{000C}'
    || ('\U{001C}' <= c <= '\U{001F}') || c == '\U{0085}' || c == '\U{00A0}' || c == '\U{1680}'
    || ('\U{2000}' <= c <= '\U{200A}') || c == '\U{2028}' || c == '\U{2029}' || c == '\U{202F}'
    || c == '\U{205F}' || c == '\U{3000}'
  }

  /** `pat` occurs in `s` starting at index `i`. */
  predicate OccursAt(s: string, pat: string, i: int) {
    0 <= i && i + |pat| <= |s| && s[i..i + |pat|] == pat
  }

  /** `str.find(pat, from)`: the leftmost occurrence of `pat` at or after `from`. */
  function FindFrom(s: string, pat: string, from: nat): (r: Option<nat>)
    decreases |s| - from
    ensures r.Some? ==> from <= r.value && OccursAt(s, pat, r.value)
    ensures r.Some? ==> forall k :: from <= k < r.value ==> !OccursAt(s, pat, k)
    ensures r.None? ==> forall k :: from <= k ==> !OccursAt(s, pat, k)
  {
    if from + |pat| > |s| then None
    else if s[from..from + |pat|] == pat then Some(from)
    else FindFrom(s, pat, from + 1)
  }

  /** An occurrence with none before it (from `from` on) is the one `find` reports. */
  lemma FindFromFinds(s: string, pat: string, from: nat, k: nat)
    requires from <= k && OccursAt(s, pat, k)
    requires forall m :: from <= m < k ==> !OccursAt(s, pat, m)
    ensures FindFrom(s, pat, from) == Some(k)
  {
    var r := FindFrom(s, pat, from);
    assert r.Some? && r.value <= k;
  }

  /** Python's `pat in s`. */
  predicate Contains(s: string, pat: string) {
    FindFrom(s, pat, 0).Some?
  }

  lemma ContainsIff(s: string, pat: string)
    ensures Contains(s, pat) <==> exists k :: OccursAt(s, pat, k)
  {
    if Contains(s, pat) {
      assert OccursAt(s, pat, FindFrom(s, pat, 0).value);
    }
  }

  /** An occurrence inside a slice is an occurrence in the whole string. */
  lemma OccursInSlice(s: string, lo: int, hi: int, pat: string, k: int)
    requires 0 <= lo <= hi <= |s|
    requires OccursAt(s[lo..hi], pat, k)
    ensures OccursAt(s, pat, lo + k)
  {
    forall i | 0 <= i < |pat|
      ensures s[lo + k + i] == pat[i]
    {
      assert pat[i] == s[lo..hi][k..k + |pat|][i];
    }
  }

  /** Occurrences inside a slice are the occurrences in the whole string
      that fit in the slice. */
  lemma OccursInSliceIff(s: string, lo: int, hi: int, pat: string, k: int)
    requires 0 <= lo <= hi <= |s| && 0 <= k && k + |pat| <= hi - lo
    ensures OccursAt(s[lo..hi], pat, k) <==> OccursAt(s, pat, lo + k)
  {
    var a := s[lo..hi][k..k + |pat|];
    var b := s[lo + k..lo + k + |pat|];
    forall x | 0 <= x < |pat|
      ensures a[x] == b[x]
    {
      assert a[x] == s[lo + k + x];
    }
    assert a == b;
  }

  /** An occurrence inside an occurrence is an occurrence. */
  lemma OccursTransitive(s: string, mid: string, pat: string, i: int, k: int)
    requires OccursAt(s, mid, i) && OccursAt(mid, pat, k)
    ensures OccursAt(s, pat, i + k)
  {
    OccursInSlice(s, i, i + |mid|, pat, k);
  }

  // ---------------------------------------------------------------------------
  // str.strip()

  /** Index of the first non-whitespace character at or after `i`. */
  function SkipSpace(s: string, i: nat): (j: nat)
    requires i <= |s|
    decreases |s| - i
    ensures i <= j <= |s|
    ensures forall k :: i <= k < j ==> IsSpace(s[k])
    ensures j < |s| ==> !IsSpace(s[j])
  {
    if i < |s| && IsSpace(s[i]) then SkipSpace(s, i + 1) else i
  }

  /** Index just past the last non-whitespace character before `j`, never below `lo`. */
  function SkipSpaceBack(s: string, lo: nat, j: nat): (k: nat)
    requires lo <= j <= |s|
    decreases j
    ensures lo <= k <= j
    ensures forall m :: k <= m < j ==> IsSpace(s[m])
    ensures k > lo ==> !IsSpace(s[k - 1])
  {
    if j > lo && IsSpace(s[j - 1]) then SkipSpaceBack(s, lo, j - 1) else j
  }

  /** Neither end of `s` is whitespace. */
  predicate IsStripped(s: string) {
    |s| == 0 || (!IsSpace(s[0]) && !IsSpace(s[|s| - 1]))
  }

  predicate AllSpace(s: string) {
    forall k :: 0 <= k < |s| ==> IsSpace(s[k])
  }

  /** Reference definition of `strip`: `r` is a slice of `s` with no whitespace
      at either end, and everything cut off on both sides is whitespace. */
  ghost predicate StrippedFrom(s: string, r: string) {
    exists a, b :: 0 <= a <= b <= |s| && r == s[a..b] && IsStripped(r)
      && AllSpace(s[..a]) && AllSpace(s[b..])
  }

  /** Python's `s.strip()` with no argument. */
  function Strip(s: string): (r: string)
    ensures IsStripped(r)
    ensures StrippedFrom(s, r)
  {
    var a := SkipSpace(s, 0);
    var b := SkipSpaceBack(s, a, |s|);
    assert AllSpace(s[..a]) && AllSpace(s[b..]);
    s[a..b]
  }

  /** Outside the slice `s[a..b]` everything is whitespace. */
  lemma AllSpaceOutside(s: string, a: int, b: int)
    requires 0 <= a <= b <= |s|
    requires AllSpace(s[..a]) && AllSpace(s[b..])
    ensures forall k :: 0 <= k < a ==> IsSpace(s[k])
    ensures forall k :: b <= k < |s| ==> IsSpace(s[k])
  {
    assert forall k :: 0 <= k < a ==> s[..a][k] == s[k];
    assert forall k :: b <= k < |s| ==> s[b..][k - b] == s[k];
  }

  /** There is only one way to strip a string. */
  lemma StrippedFromUnique(s: string, r1: string, r2: string)
    requires StrippedFrom(s, r1) && StrippedFrom(s, r2)
    ensures r1 == r2
  {
    var a1, b1 :| 0 <= a1 <= b1 <= |s| && r1 == s[a1..b1] && IsStripped(r1)
      && AllSpace(s[..a1]) && AllSpace(s[b1..]);
    var a2, b2 :| 0 <= a2 <= b2 <= |s| && r2 == s[a2..b2] && IsStripped(r2)
      && AllSpace(s[..a2]) && AllSpace(s[b2..]);
    // the non-whitespace ends of each result lie inside the other slice
    if |r1| > 0 {
      EndsInside(s, a1, b1, a2, b2);
    }
    if |r2| > 0 {
      EndsInside(s, a2, b2, a1, b1);
    }
    assert (|r1| == 0 && |r2| == 0) || (a1 == a2 && b1 == b2);
  }

  lemma EndsInside(s: string, a1: int, b1: int, a2: int, b2: int)
    requires 0 <= a1 < b1 <= |s| && 0 <= a2 <= b2 <= |s|
    requires IsStripped(s[a1..b1])
    requires AllSpace(s[..a2]) && AllSpace(s[b2..])
    ensures a2 <= a1 && b1 <= b2
  {
    AllSpaceOutside(s, a2, b2);
    assert s[a1..b1][0] == s[a1];
    assert s[a1..b1][b1 - a1 - 1] == s[b1 - 1];
  }

  /** `strip` removes exactly the surrounding whitespace, so it is idempotent
      and leaves an already stripped string alone. */
  lemma StripOfStripped(s: string)
    requires IsStripped(s)
    ensures Strip(s) == s
  {
    assert s[0..|s|] == s;
    assert s[..0] == [] && s[|s|..] == [];
    assert StrippedFrom(s, s);
    StrippedFromUnique(s, Strip(s), s);
  }

  lemma StripIdempotent(s: string)
    ensures Strip(Strip(s)) == Strip(s)
  {
    StripOfStripped(Strip(s));
  }

  /** `strip` cannot create an occurrence: whatever occurs in `strip(s)` occurs in `s`. */
  lemma StripKeepsAbsence(s: string, pat: string)
    ensures Contains(Strip(s), pat) ==> Contains(s, pat)
  {
    var a := SkipSpace(s, 0);
    var b := SkipSpaceBack(s, a, |s|);
    if Contains(Strip(s), pat) {
      var k := FindFrom(Strip(s), pat, 0).value;
      OccursInSlice(s, a, b, pat, k);
    }
  }

  // ---------------------------------------------------------------------------
  // str.lower()

  /** `str.lower()` on one character, restricted to ASCII letters. */
  function LowerChar(c: char): char {
    if 'A' <= c <= 'Z' then (c as int + 32) as char else c
  }

  function Lower(s: string): (r: string)
    ensures |r| == |s|
    ensures forall i :: 0 <= i < |s| ==> r[i] == LowerChar(s[i])
  {
    seq(|s|, i requires 0 <= i < |s| => LowerChar(s[i]))
  }

  /** Lower-casing preserves occurrences: any capitalisation of `pat` found in
      `s` is found, lower-cased, in `Lower(s)`. */
  lemma LowerKeepsOccurrence(s: string, pat: string, k: int)
    requires OccursAt(s, pat, k)
    ensures OccursAt(Lower(s), Lower(pat), k)
  {
    assert forall m :: 0 <= m < |pat| ==> Lower(s)[k + m] == LowerChar(s[k + m]) == LowerChar(pat[m]);
  }

  // ---------------------------------------------------------------------------
  // str.replace()

  /** Python's `s.replace(target, repl)`: non-overlapping occurrences, left to right. */
  function Replace(s: string, target: string, repl: string): (r: string)
    requires |target| > 0
    decreases |s|
    ensures |repl| <= |target| ==> |r| <= |s|
    ensures |repl| == |target| ==> |r| == |s|
  {
    if |s| < |target| then s
    else if s[..|target|] == target then repl + Replace(s[|target|..], target, repl)
    else [s[0]] + Replace(s[1..], target, repl)
  }

  /** A text without the target comes back unchanged. */
  lemma {:induction false} ReplaceWithoutTarget(s: string, target: string, repl: string)
    requires |target| > 0
    requires !Contains(s, target)
    ensures Replace(s, target, repl) == s
    decreases |s|
  {
    ContainsIff(s, target);
    if |s| >= |target| {
      assert !OccursAt(s, target, 0);
      ContainsIff(s[1..], target);
      if Contains(s[1..], target) {
        var k :| OccursAt(s[1..], target, k);
        assert s[1..|s|] == s[1..];
        OccursInSlice(s, 1, |s|, target, k);
      }
      ReplaceWithoutTarget(s[1..], target, repl);
    }
  }

  /** The first occurrence of the target becomes `repl`; the text before it
      is kept and the rest of the text is replaced in turn. With
      `ReplaceWithoutTarget` this determines the result for every text. */
  lemma ReplaceAtFirst(s: string, target: string, repl: string, i: nat)
    requires |target| > 0
    requires OccursAt(s, target, i)
    requires forall k :: 0 <= k < i ==> !OccursAt(s, target, k)
    ensures Replace(s, target, repl) == s[..i] + repl + Replace(s[i + |target|..], target, repl)
  {
    var a, b := s[..i], s[i + |target|..];
    SplitAround(s, target, i);
    ReplaceSplit(a, target, repl, b);
  }

  /** A text is the part before an occurrence, the occurrence and the rest. */
  lemma SplitAround(s: string, target: string, i: nat)
    requires OccursAt(s, target, i)
    ensures s == s[..i] + target + s[i + |target|..]
  {
    assert s[i..i + |target|] == target;
    assert s == s[..i] + s[i..i + |target|] + s[i + |target|..];
  }

  /** The same fact with the text written out around its first occurrence. */
  lemma {:induction false} ReplaceSplit(a: string, target: string, repl: string, b: string)
    requires |target| > 0
    requires forall k :: 0 <= k < |a| ==> !OccursAt(a + target + b, target, k)
    ensures Replace(a + target + b, target, repl) == a + repl + Replace(b, target, repl)
    decreases |a|
  {
    if |a| == 0 {
      SplitBase(a, target, repl, b);
    } else {
      SplitShift(a, target, b);
      ReplaceSplit(a[1..], target, repl, b);
      SplitStep(a, target, repl, b);
    }
  }

  /** With nothing before it, the target is replaced at the start. */
  lemma SplitBase(a: string, target: string, repl: string, b: string)
    requires |target| > 0 && |a| == 0
    ensures Replace(a + target + b, target, repl) == a + repl + Replace(b, target, repl)
  {
    var s := a + target + b;
    assert s[..|target|] == target;
    assert s[|target|..] == b;
  }

  /** Dropping the first character of `a` keeps the target's first
      occurrence right after it. */
  lemma SplitShift(a: string, target: string, b: string)
    requires |a| > 0
    requires forall k :: 0 <= k < |a| ==> !OccursAt(a + target + b, target, k)
    ensures forall k :: 0 <= k < |a| - 1 ==> !OccursAt(a[1..] + target + b, target, k)
  {
    var s := a + target + b;
    var rest := a[1..] + target + b;
    assert rest == s[1..];
    forall k | 0 <= k < |a| - 1
      ensures !OccursAt(rest, target, k)
    {
      if k + |target| <= |rest| {
        assert rest[k..k + |target|] == s[k + 1..k + 1 + |target|];
        assert !OccursAt(s, target, k + 1);
      }
    }
  }

  /** One step of the induction: the replaced tail put back behind the
      first character of `a`. */
  lemma SplitStep(a: string, target: string, repl: string, b: string)
    requires |target| > 0 && |a| > 0
    requires !OccursAt(a + target + b, target, 0)
    requires Replace(a[1..] + target + b, target, repl) == a[1..] + repl + Replace(b, target, repl)
    ensures Replace(a + target + b, target, repl) == a + repl + Replace(b, target, repl)
  {
    var s := a + target + b;
    assert s[1..] == a[1..] + target + b;
    ReplaceSkipsFirst(s, target, repl);
    PrependJoin(a, repl, Replace(b, target, repl));
  }

  /** `a[0]` put in front of `a[1..] + x + y` gives `a + x + y`. */
  lemma PrependJoin(a: string, x: string, y: string)
    requires |a| > 0
    ensures [a[0]] + (a[1..] + x + y) == a + x + y
  {
    assert [a[0]] + a[1..] == a;
  }

  /** A text that does not start with the target keeps its first character. */
  lemma ReplaceSkipsFirst(s: string, target: string, repl: string)
    requires |target| > 0 && |s| > 0 && !OccursAt(s, target, 0)
    ensures Replace(s, target, repl) == [s[0]] + Replace(s[1..], target, repl)
  {
    if |s| >= |target| {
      assert s[0..|target|] == s[..|target|];
    }
  }

  /** `find` reports where the first replacement happens. */
  lemma ReplaceAtFound(s: string, target: string, repl: string)
    requires |target| > 0 && FindFrom(s, target, 0).Some?
    ensures var i := FindFrom(s, target, 0).value;
            Replace(s, target, repl) == s[..i] + repl + Replace(s[i + |target|..], target, repl)
  {
    ReplaceAtFirst(s, target, repl, FindFrom(s, target, 0).value);
  }

  /** No `a` immediately followed by `b` anywhere in `s`. */
  predicate NoPair(s: string, a: char, b: char) {
    forall k :: 0 <= k < |s| - 1 ==> !(s[k] == a && s[k + 1] == b)
  }

  /** The first character of a replacement result. */
  lemma ReplaceHead(s: string, target: string, repl: string)
    requires |target| > 0 && |repl| > 0 && |s| > 0
    ensures |Replace(s, target, repl)| > 0
    ensures Replace(s, target, repl)[0] == if |s| >= |target| && s[..|target|] == target then repl[0] else s[0]
  {
  }

  /** Replacing every two-character sequence `ab` by a text that contains no `a`
      and does not start with `b` leaves no `ab` behind. */
  lemma {:induction false} ReplacePairRemovesPair(s: string, a: char, b: char, repl: string)
    requires |repl| > 0 && repl[0] != b
    requires forall m :: 0 <= m < |repl| ==> repl[m] != a
    ensures NoPair(Replace(s, [a, b], repl), a, b)
  {
    var target := [a, b];
    if |s| < |target| {
    } else if s[..|target|] == target {
      var rest := Replace(s[|target|..], target, repl);
      ReplacePairRemovesPair(s[|target|..], a, b, repl);
      var r := repl + rest;
      forall k | 0 <= k < |r| - 1
        ensures !(r[k] == a && r[k + 1] == b)
      {
        if k < |repl| {
          assert r[k] == repl[k];
        } else {
          assert r[k] == rest[k - |repl|] && r[k + 1] == rest[k + 1 - |repl|];
        }
      }
    } else {
      var rest := Replace(s[1..], target, repl);
      ReplacePairRemovesPair(s[1..], a, b, repl);
      var r := [s[0]] + rest;
      forall k | 0 <= k < |r| - 1
        ensures !(r[k] == a && r[k + 1] == b)
      {
        if k == 0 {
          ReplaceHead(s[1..], target, repl);
          if s[0] == a {
            assert s[1] != b by { assert s[..2] == [s[0], s[1]]; }
            if |s[1..]| >= |target| && s[1..][..|target|] == target {
              assert rest[0] == repl[0];
            } else {
              assert rest[0] == s[1];
            }
          }
        } else {
          assert r[k] == rest[k - 1] && r[k + 1] == rest[k];
        }
      }
    }
  }

  /** The two-character pattern is contained exactly when the pair occurs. */
  lemma ContainsPairIff(s: string, a: char, b: char)
    ensures Contains(s, [a, b]) <==> !NoPair(s, a, b)
  {
    if Contains(s, [a, b]) {
      var k := FindFrom(s, [a, b], 0).value;
      assert s[k..k + 2] == [a, b];
      assert s[k] == a && s[k + 1] == b;
    }
    if !NoPair(s, a, b) {
      var k :| 0 <= k < |s| - 1 && s[k] == a && s[k + 1] == b;
      assert s[k..k + 2] == [a, b];
      assert OccursAt(s, [a, b], k);
    }
  }

  // ---------------------------------------------------------------------------
  // Concatenation

  /** `"".join(parts)`. */
  function Concat(parts: seq<string>): (r: string)
    decreases |parts|
  {
    if |parts| == 0 then "" else Concat(parts[..|parts| - 1]) + parts[|parts| - 1]
  }

  /** Joining distributes over sequence concatenation: parts keep their order. */
  lemma {:induction false} ConcatAppend(p: seq<string>, q: seq<string>)
    ensures Concat(p + q) == Concat(p) + Concat(q)
    decreases |q|
  {
    if |q| == 0 {
      assert p + q == p;
    } else {
      var q' := q[..|q| - 1];
      assert (p + q)[..|p + q| - 1] == p + q';
      ConcatAppend(p, q');
    }
  }

  /** Where the `i`-th part starts inside the joined text. */
  function PartOffset(parts: seq<string>, i: nat): nat
    requires i <= |parts|
  {
    |Concat(parts[..i])|
  }

  /** Joining splits at any part boundary. */
  lemma ConcatSplit(parts: seq<string>, j: nat)
    requires j <= |parts|
    ensures Concat(parts) == Concat(parts[..j]) + Concat(parts[j..])
  {
    assert parts[..j] + parts[j..] == parts;
    ConcatAppend(parts[..j], parts[j..]);
  }

  /** A run of consecutive parts appears, joined, at the offset of its first part. */
  lemma ConcatRangeAt(parts: seq<string>, i: nat, j: nat)
    requires i <= j <= |parts|
    ensures OccursAt(Concat(parts), Concat(parts[i..j]), PartOffset(parts, i))
  {
    var pre, mid, post := Concat(parts[..i]), Concat(parts[i..j]), Concat(parts[j..]);
    assert Concat(parts) == pre + mid + post by {
      var upto := parts[..j];
      ConcatSplit(parts, j);
      ConcatSplit(upto, i);
      assert upto[..i] == parts[..i];
      assert upto[i..] == parts[i..j];
    }
    MiddleOfThree(pre, mid, post);
  }

  lemma MiddleOfThree(a: string, b: string, c: string)
    ensures OccursAt(a + b + c, b, |a|)
  {
    assert (a + b + c)[|a|..|a| + |b|] == b;
  }

  lemma ConcatSingle(x: string)
    ensures Concat([x]) == x
  {
    assert [x][..0] == [];
  }

  lemma ConcatTwo(a: string, b: string)
    ensures Concat([a, b]) == a + b
  {
    assert [a, b][..1] == [a];
    ConcatSingle(a);
  }

  lemma ConcatThree(a: string, b: string, c: string)
    ensures Concat([a, b, c]) == a + b + c
  {
    assert [a, b, c][..2] == [a, b];
    ConcatTwo(a, b);
  }

  lemma ConcatFour(a: string, b: string, c: string, d: string)
    ensures Concat([a, b, c, d]) == a + b + c + d
  {
    assert [a, b, c, d][..3] == [a, b, c];
    ConcatThree(a, b, c);
  }

  /** Every part appears, in order, at its offset in the joined text. */
  lemma ConcatPartAt(parts: seq<string>, i: nat)
    requires i < |parts|
    ensures OccursAt(Concat(parts), parts[i], PartOffset(parts, i))
  {
    ConcatRangeAt(parts, i, i + 1);
    assert parts[i..i + 1] == [parts[i]];
    ConcatSingle(parts[i]);
  }

  /** The joined text ends with the last part. */
  lemma ConcatEndsWithLast(parts: seq<string>)
    requires |parts| > 0
    ensures OccursAt(Concat(parts), parts[|parts| - 1], |Concat(parts)| - |parts[|parts| - 1]|)
  {
    var whole := Concat(parts);
    var last := parts[|parts| - 1];
    assert whole == Concat(parts[..|parts| - 1]) + last;
    assert whole[|whole| - |last|..] == last;
  }
}

=== FILE: wrappers.dfy ===
/** Failure-carrying wrappers used throughout the model: an optional value and
    a value-or-error result (the latter stands for a raised Python exception). */
module Wrappers {

  datatype Option<+T> = None | Some(value: T)

  datatype Result<+T, +E> = Success(value: T) | Failure(error: E)
}
